=== FILE: README.md ===
# Dual-view token sequences of codeprep, in Dafny

This project models the token-sequence engine of `codeprep/tokens.py`. A
prepped token sequence is a list of sub-tokens together with metadata. The
metadata holds two parallel lists: the number of sub-tokens in each full token,
and the type of each full token. The same data can be read through two views:

- the **sub-token view** (`PreppedSubTokenSequence`) indexes sub-tokens. A
  slice that starts or stops inside a full token degrades to a
  `SurrogatePreppedTokenSequence`, which only holds raw sub-tokens;
- the **full-token view** (`PreppedFullTokenSequence`) indexes full tokens.
  Every slice is exact, and iteration yields one formatted value per full
  token.

Construction checks that the tokens agree with the counts. When the
end-of-word flag is set, it also checks that every full token ends with
`</t>`. It then builds two index tables: a prefix-sum table from full-token
index to sub-token offset, and its inverse, which exists only at full-token
boundaries. `_convert_index` normalises negative and out-of-range indices
before either table is consulted. Two iterators align outside data with a
sequence: one broadcasts per-full-token values down to sub-tokens, the other
groups per-sub-token values up into full tokens.

Modules:

- `wrappers.dfy` (`Wrappers`): `Option` and `Result`.
- `lists.dfy` (`Lists`): Python slice semantics (`PySlice`, `ResolveBound`),
  `Sum`, the prefix table with its lemmas, `LastIndexOf`, `Join`, `Repeat`.
- `iterators.dfy` (`Iterators`): the grouping iterator (`Group`, `GroupIter`)
  and the broadcast iterator (`Broadcast`, `BroadcastIter`).
- `sequence.dfy` (`Sequence`): metadata, construction, index conversion,
  the view conversions and concatenation.
- `subview.dfy` (`SubView`) and `fullview.dfy` (`FullView`): the two views.
- `doctests.dfy` (`Doctests`): the class's docstring examples, proved as
  concrete lemmas. Every example is covered except the two that mutate a
  token list in place (lines 119-121 and 139-141; see "Left out").

Modelling choices:

- Python values become immutable datatypes. An in-place update (`add`'s
  `extend`, `set_all_tokens_type`, `__setitem__`) returns the updated value.
- The index tables are a stored field, `table`. Construction sets it to the
  prefix table, and the sub-to-full lookup is the last position of an offset
  in it. A Python dict comprehension keeps the last index when a key repeats,
  which matters when a count is 0.
- Every raised exception is an `Error` variant:
  - `OutOfSync` is the `ValueError` from construction;
  - `MissingEndMarker` is the `AssertionError` from construction;
  - `MiddleOfFullToken` is the `KeyError` from the sub-to-full lookup;
  - `NoSuchSubIndex` is the `KeyError` from the full view's `len`;
  - `StepGiven` and `BracketSchemeRequested` stand for the `TypeError` raised
    by calling `NotImplemented(...)`;
  - `WrongOperand` is the `TypeError` from `add` and `__setitem__`.
- The end-of-word marker is the constant `</t>`.
- `PreppedTokenMetadata.update_` appends both lists, and `cum_sum` is a
  running sum. `codeprep/preprocess/metadata.py`, `codeprep/util/misc.py` and
  `codeprep/preprocess/placeholders.py` are not part of this model.

## Model

| member | source | states |
|---|---|---|
| Lists.ResolveBound | codeprep/tokens.py:256-259 | A Python slice bound resolves into [0, len], and a bound already in range is kept as is |
| Lists.PrefixTableSpans | codeprep/tokens.py:171 | The full-to-sub table starts at 0, ends at the total count, and the distance between entries i and j is the sum of counts i..j-1 |
| Lists.PrefixTableMonotone | codeprep/tokens.py:171 | The full-to-sub table never decreases, and strictly increases when every full token has a sub-token |
| Lists.LastIndexOf | codeprep/tokens.py:172 | The sub-to-full lookup is absent exactly when the offset is not a full-token boundary; when present, it is the last table position holding the offset |
| Iterators.Group | codeprep/tokens.py:33-55 | The grouping iterator yields one value per full token, and the i-th value is the formatter applied to the i-th window of the prefix table |
| Iterators.GroupIter | codeprep/tokens.py:44-55 | The cursor loop of `__next__` yields the same windows as the prefix-table description |
| Iterators.GroupExact | codeprep/tokens.py:48-49 | When the data has one element per sub-token, every window lies inside it and is an exact subsequence |
| Iterators.GroupSlice | codeprep/tokens.py:305-313 | Grouping the sub-tokens of full tokens k1..k2 by their own counts gives the k1..k2 part of the whole grouping |
| Iterators.GroupAppend | codeprep/tokens.py:225-229 | Grouping the concatenation of two synchronized pieces is the concatenation of their groupings |
| Iterators.Broadcast | codeprep/tokens.py:10-30 | The broadcast iterator raises exactly when there are more values than full tokens, and by then it has already yielded the copies of every value that has a full token; otherwise it yields the broadcast of all values |
| Iterators.BroadcastIter | codeprep/tokens.py:19-30 | The cursor loop of `__next__` emits each value once per sub-token, at least once, and stops or raises as the broadcast description says; when it raises, the values it emitted so far are kept with the error |
| Iterators.SpreadLength | codeprep/tokens.py:19-30 | With positive counts, broadcasting yields as many values as the covered full tokens have sub-tokens |
| Iterators.SpreadWindow | codeprep/tokens.py:23-28 | With positive counts, the sub-tokens of full token i all receive value i |
| Iterators.GroupAfterBroadcast | codeprep/tokens.py:10-55 | With positive counts, grouping broadcast data back by the same counts hands each full token the copies of its own value |
| Sequence.IsTerminalSubtoken | codeprep/tokens.py:323-328 | A sub-token is terminal iff it is some word followed by `</t>`; asking for the bracket scheme is an error |
| Sequence.TerminalIsMarkerSuffix | codeprep/tokens.py:326 | `endswith('</t>')` holds exactly of the strings that are a word followed by `</t>` |
| Sequence.FirstUnterminated | codeprep/tokens.py:166-169 | Reports the first full token without the end marker, or none when all have it |
| Sequence.Construct | codeprep/tokens.py:158-172 | Construction succeeds iff the token count equals the sum of counts and, when the flag is set, every full token ends with `</t>`; otherwise it reports the out-of-sync sizes or the first unterminated full token; on success the value is well formed and keeps its inputs |
| Sequence.Length | codeprep/tokens.py:316-317 | The full view's length is the last table position holding the token count, as the dict built in order returns, and it fails exactly when the token count is not in the table; the sub view's length (lines 267-268) is its token count |
| Sequence.FreshLength | codeprep/tokens.py:316-317 | On a freshly built sequence the full view's length is the number of full tokens |
| Sequence.Normalize | codeprep/tokens.py:174-188 | An index below -n leads to `-conv(n) - 1`; any other index resolves like a Python bound into [0, n] before conversion |
| Sequence.FullToSubIndex | codeprep/tokens.py:174-191 | `None` stays `None`; any other index converts exactly when the full view's length n exists, to the table entry of the index resolved into [0, n], or to `-table[n] - 1` below -n |
| Sequence.SubToFullIndex | codeprep/tokens.py:174-200 | `None` stays `None`; an index converts iff its normalised offset is a full-token boundary, and the only failure is the middle-of-token error; the converted index is the last table position holding the offset, encoded as `-k - 1` below -n |
| Sequence.FullTokensView | codeprep/tokens.py:202-209 | The full view succeeds iff the tokens agree with the counts and, when the flag is set, every full token is terminated; the result is well formed, keeps tokens, metadata and flag, and has its tables rebuilt from the counts |
| Sequence.SubTokenView | codeprep/tokens.py:211-216 | The sub view succeeds under the same conditions, keeps tokens, metadata and flag, and has its tables rebuilt from the counts |
| Sequence.ViewRoundTrip | codeprep/tokens.py:202-216 | Switching a well-formed sequence to the full view and back succeeds and keeps tokens, metadata, flag and tables |
| Sequence.AddSequence | codeprep/tokens.py:225-233 | Sequence plus sequence appends tokens, counts and types and keeps the old tables; sequence plus surrogate is a surrogate of the joined tokens; anything else raises |
| Sequence.AddSurrogate | codeprep/tokens.py:62-66 | A surrogate accepts only a surrogate and yields the concatenation of their tokens |
| Sequence.Add | codeprep/tokens.py:62-66 | `+` succeeds iff the left is a sequence and the right is an engine value, or both are surrogates; the result carries the joined tokens and stays synchronized iff both operands are |
| Sequence.AppendStaysInSync | codeprep/tokens.py:225-229 | Appending two well-formed sequences, when the receiver's end-of-word flag implies the operand's, passes the construction checks again |
| Sequence.AddAssociativeOnTokens | codeprep/tokens.py:62-66 | Whenever `(a + b) + c` succeeds, `a + (b + c)` also succeeds, and both hold the tokens of a, b and c in order |
| Sequence.SurrogateRefusesSequence | codeprep/tokens.py:62-66 | A sequence accepts a surrogate on its right but a surrogate refuses a sequence, so one grouping of a sum can raise where the other succeeds |
| Sequence.Bounds | codeprep/tokens.py:244-248 | An integer index i is the slice [i:i+1]; a slice with a step is an error |
| Sequence.SliceBetween | codeprep/tokens.py:305-313 | The tokens of full tokens ka..kb with their counts pass the construction checks, and their grouping is the matching part of the whole grouping |
| Sequence.AppendLeavesStaleTable | codeprep/tokens.py:225-229 | After appending a non-empty sequence to a full view, its length raises |
| Sequence.AppendRefreshed | codeprep/tokens.py:225-229 | With rebuilt tables, any two sequences append to the joined tokens and metadata; the length counts both parts whenever both operands are in sync, and the result is well formed whenever both operands are and the receiver's flag implies the operand's |
| FullView.GetItem | codeprep/tokens.py:299-314 | A step is an error; any result is well formed and keeps the view and the flag |
| FullView.FullToSubFresh | codeprep/tokens.py:305-309 | On a fresh sequence the converted bounds are the table entries of the resolved full-token bounds |
| FullView.SliceIsWindow | codeprep/tokens.py:305-314 | A full-view slice takes its tokens through converted bounds and its metadata through the raw slice |
| FullView.SliceContent | codeprep/tokens.py:299-314 | A full-view slice never fails; it holds exactly the sub-tokens of full tokens start..stop, with counts and types sliced alike |
| FullView.SliceExact | codeprep/tokens.py:299-317 | A full-view slice also has length stop - start and groups to the matching part of the whole grouping |
| FullView.LastIndexIsEmpty | codeprep/tokens.py:299-301 | As written, `full[-1]` on any non-empty fresh full view holds no tokens and no counts |
| FullView.ItemAtSelectsOne | codeprep/tokens.py:299-313 | With the one-element slice ending at the end for -1, every index -n <= i < n selects exactly the sub-tokens and the count of full token i, counted from the end when negative |
| FullView.Items | codeprep/tokens.py:286-288 | Iteration yields one value per full token, paired with its type when asked, truncated like `zip`; item i is the formatter on the sub-tokens between prefix-table entries i and i + 1 of the counts, whatever the stored tables |
| FullView.ItemsAreFullTokens | codeprep/tokens.py:286-288 | Whenever the tokens agree with the counts, stale tables or not, the i-th item is the formatter applied to an in-bounds run of exactly the sub-tokens of full token i |
| FullView.GetIterator | codeprep/tokens.py:290-291 | Over full tokens the data passes unchanged; otherwise it is grouped by the full tokens' counts |
| FullView.SetItem | codeprep/tokens.py:293-297 | Assigning anything but a full-view sequence raises; a result keeps the view and flag |
| FullView.SetItemSplices | codeprep/tokens.py:293-297 | Assignment at key splices the value's tokens, counts and types between the parts before and after full token key, and adopts the tables of the prefix part |
| FullView.SetItemBreaksLength | codeprep/tokens.py:297 | After assigning a non-empty value, the full view's length raises |
| FullView.SetItemRebuilt | codeprep/tokens.py:293-297 | With rebuilt tables, assignment leaves tables that match the new counts |
| FullView.SetItemRebuiltIsFresh | codeprep/tokens.py:293-297 | With rebuilt tables, assignment at an index in range succeeds, the result is well formed, and its length is n - 1 plus the value's full tokens |
| SubView.GetItem | codeprep/tokens.py:244-262 | A step is an error; every result holds exactly the Python slice of the tokens; a synchronized result is well formed, in the sub view, with the same flag |
| SubView.SubToFullFresh | codeprep/tokens.py:251-255 | On a fresh sequence a bound converts iff its resolved offset is a table entry, and the converted bound points back at that entry |
| SubView.SliceAlignment | codeprep/tokens.py:244-262 | A sub-view slice is synchronized iff both resolved bounds are full-token boundaries; otherwise it is a surrogate of exactly `tokens[start:stop]`; a synchronized slice carries the counts between the full tokens its converted bounds resolve to (the last one starting at a repeated offset), and the types between them when there is one type per full token |
| SubView.SyncedSlice | codeprep/tokens.py:250-260 | When both bounds convert, the slice is synchronized and carries the counts between the full-token positions the converted bounds resolve to, and the types between them when there is one type per full token |
| SubView.ZeroCountSlice | codeprep/tokens.py:250-260 | Over counts `[1, 0, 2]`, `sub[1:]` is synchronized with counts `[2]`: a bound at a repeated offset selects the last full token there |
| SubView.Len | codeprep/tokens.py:267-268 | The sub view's length is its token count, which is the sum of the counts on a fresh sequence |
| SubView.GetIterator | codeprep/tokens.py:270-271 | Over full tokens the data is broadcast, which raises iff there are more values than full tokens, after yielding the broadcast of the values that have a full token; otherwise it passes unchanged |
| SubView.BroadcastAligns | codeprep/tokens.py:270-271 | With one value per full token and positive counts, broadcasting gives one value per sub-token, and grouping it back gives each full token copies of its own value |
| SubView.FromFullToken | codeprep/tokens.py:273-275 | A list of sub-tokens becomes one full token with the given type and the end-of-word flag unset, and construction always accepts it |
| SubView.SetAllTokensType | codeprep/tokens.py:277-278 | Every full token gets the given type; tokens, counts and tables are unchanged |
| Doctests.ConstructionErrors | codeprep/tokens.py:75-84 | Two sub-tokens against a count of 1 are out of sync; `hi` without the marker is reported as unterminated |
| Doctests.Fixture | codeprep/tokens.py:85-94 | The doctest's sequence is accepted with the table `[0, 1, 3]`, and its full tokens are `hi</t>` and `there</t>` |
| Doctests.Views | codeprep/tokens.py:85-97 | Both views of the doctest's data are well formed, each is the other's view conversion, and the sub view has length 3 |
| Doctests.SubFirst | codeprep/tokens.py:100-101 | `sub[0]` is a synchronized sub view of `hi</t>`, with counts `[1]` and table `[0, 1]` |
| Doctests.SubRest | codeprep/tokens.py:104 | `sub[1:]` is a synchronized sub view of `the`, `re</t>`, with counts `[2]` |
| Doctests.RejoinedView | codeprep/tokens.py:104-105 | `sub[0] + sub[1:]` keeps the stale table `[0, 1]`, and its full view is the docstring's full view, grouping to `[['hi</t>'], ['the', 're</t>']]` |
| Doctests.SubSecond | codeprep/tokens.py:102-103 | `sub[1]` is a surrogate of `the` |
| Doctests.SubTail | codeprep/tokens.py:106 | `sub[2:]` is a surrogate of `re</t>` |
| Doctests.ConcatenationScenario | codeprep/tokens.py:106-107 | `sub[0] + sub[1] + sub[2:]` is a surrogate of all three sub-tokens, while `sub[1] + sub[0]` raises |
| Doctests.FullFirst | codeprep/tokens.py:136 | `full[0]` is the full view of `hi</t>` alone, with counts `[1]` |
| Doctests.FullLength | codeprep/tokens.py:108-109 | The full view has length 2 |
| Doctests.FullSliceWhole | codeprep/tokens.py:110-113 | `full[:]` and `full[0:2]` are the whole full view |
| Doctests.FullSliceAll | codeprep/tokens.py:114-115 | `full[-10:10]` holds every sub-token |
| Doctests.FullSliceButLast | codeprep/tokens.py:116-118 | `full[:-1]` holds `hi</t>` alone, with counts `[1]` |
| Doctests.FullSliceRest | codeprep/tokens.py:122-123 | `full[1:]` holds the sub-tokens of `there</t>`, with counts `[2]` |
| Doctests.FullSliceFromEnd | codeprep/tokens.py:128-129 | `full[-2:]` is the whole full view |
| Doctests.FullSliceLast | codeprep/tokens.py:130-131 | `full[-1:]` holds the sub-tokens of `there</t>` |
| Doctests.FullSliceEmpty | codeprep/tokens.py:124-127 | `full[1:1]` and `full[-2:0]` are empty |
| Doctests.FullLastIndex | codeprep/tokens.py:299-301 | On the docstring's full view, `full[-1]` as written holds no tokens, while the corrected index gives `there</t>`'s sub-tokens with counts [2] |
| Doctests.AssignmentScenario | codeprep/tokens.py:132-138 | For the value of `full[0]`: assigning a string raises; `full[1] = full[0]` gives `hi</t>` twice, after which the length raises, while the rebuilt assignment has length 2 |
| Doctests.StaleViewItems | codeprep/tokens.py:136-138 | After `full[1] = full[0]`, iterating `full` gives `hi</t>` twice even though its tables are stale |
| Doctests.IteratorScenarios | codeprep/tokens.py:144-152 | Broadcasting `[1, 2]` gives `[1, 2, 2]`; grouping `[1, 2, 3]` gives `[[1], [2, 3]]`; otherwise the data passes unchanged |
| Doctests.IteratorOverrun | codeprep/tokens.py:19-30 | Broadcasting `[1, 2, 3]` over two full tokens yields `1, 2, 2` and then raises |

## Left out

- `__repr__` and `__str__` (codeprep/tokens.py:222-223, 264-265, 319-320): printing only.
- In-place mutation of a `tokens` list, and in-place `extend`: values are immutable. Docstring lines 119-121 assign into the list of the fresh slice `full[:-1]`, which leaves `full` unchanged; in the model no value can change, so this is not stated. Lines 139-141 assign into `full`'s own list, which the model cannot express.
- `update_`'s general `__dict__` update: only the `tokens` and `metadata` fields it is used for are modelled.
- The `assert isinstance(self.tokens, list)` at line 159: tokens are always a sequence here.
- The sub view's `__iter__` (line 241-242): it is iteration over `tokens`.
- Formatters are passed to the grouping functions as an arbitrary function, not stored in the full view. A formatter that raises or has effects is not modelled.
- Negative counts: counts are natural numbers. Python never checks their sign.
- The exception messages: errors carry only the data that the message mentions.
- FullView.GetItem: its own contract is weak; FullView.SliceContent and FullView.SliceExact give the content for well-formed sequences, and an integer index goes through `Sequence.Bounds`.
- FullView.SetItemSplices: states the splice only for 0 <= key < number of full tokens; negative or out-of-range keys follow the same code but are not characterised. With key -1 the code joins `self[:-1]`, the value and `self[0:]`, so the whole sequence appears twice; this is the same integer-index defect as under "## Findings", and no corrected assignment is modelled for it.
- SubView.SliceAlignment: characterises slices only of well-formed sequences; on stale tables only the conversion rule of `Sequence.SubToFullIndex` is stated.
- SubView.BroadcastAligns and Iterators.SpreadLength: stated for positive counts; a count of 0 still emits its value once, which `Iterators.Spread` models but these lemmas do not describe.
- Iterators.SpreadWindow: stated for positive counts; with a count of 0 the broadcast is out of step with the windows (over counts `[0, 1]`, `[a, b]` broadcasts to `[a, b]`, so full token 1's window holds `a`).
- Iterators.GroupAfterBroadcast: stated for positive counts; with a count of 0 grouping does not undo broadcasting (over counts `[0, 1]`, `[a, b]` groups back to `[[], [a]]`).
- `dataprep/dataset.py` and `dataprep/cli/stages.py`: file-system staging and calls to external runners, with no logic of the engine.

## Findings

| source | as written | input that shows it | evidently intended | confidence | as-written member | corrected member |
|---|---|---|---|---|---|---|
| codeprep/tokens.py:225-229 | `add` extends tokens and metadata but keeps the index tables built at construction | a full view of `['hi</t>']` with counts `[1]` plus another such sequence: `len` looks up 2 in the table `[0, 1]` and raises `KeyError` | the tables follow the combined counts, so `len` is 2 | medium; not executed | Sequence.AppendLeavesStaleTable | Sequence.AppendRefreshed |
| codeprep/tokens.py:293-297 | assignment adopts the tables of `self[:key]` | the doctest's full view after `full[1] = full[0]`: tokens `['hi</t>', 'hi</t>']`, table `[0, 1]`, so `len` raises `KeyError` | `len` is 2 after the assignment | medium; not executed | FullView.SetItemBreaksLength | FullView.SetItemRebuiltIsFresh |
| codeprep/tokens.py:299-301 | an integer index i becomes `slice(i, i + 1)`, so -1 becomes `[-1:0]` | the doctest's full view: `full[-1]` selects nothing, where `full[-1:]` gives `there</t>`'s sub-tokens | `full[-1]` is the last full token, as for a Python list | high; not executed | FullView.LastIndexIsEmpty | FullView.ItemAtSelectsOne |

=== FILE: doctests.dfy ===
/** The scenarios of the `PreppedTokenSequence` docstring, stated over the
    model: a sub view of `['hi</t>', 'the', 're</t>']` with counts `[1, 2]`. */
module Doctests {
  import opened Wrappers
  import opened Lists
  import opened Iterators
  import opened Sequence
  import SubView
  import FullView

  const Tokens: seq<string> := ["hi</t>", "the", "re</t>"]
  const Meta: Metadata := Metadata([1, 2], ["TypeA", "TypeA"])

  /** `sub_prepped_tokens`: the doctest's sequence in the sub view. */
  const Sub: TokenSequence := TokenSequence(SubTokens, Tokens, Meta, true, [0, 1, 3])

  /** `full_prepped_tokens`: the same data in the full view. */
  const Full: TokenSequence := TokenSequence(FullTokens(false), Tokens, Meta, true, [0, 1, 3])

  /** The two construction errors: a count mismatch, and a full token `hi`
      without the end-of-word marker. */
  lemma ConstructionErrors()
    ensures Construct(SubTokens, ["h", "i</t>"], Metadata([1], ["TypeA"]), false) == Err(OutOfSync(2, 1))
    ensures Construct(SubTokens, ["hi", "the", "re</t>"], Meta, true) == Err(MissingEndMarker("hi"))
  {
    var words := FullWords(["hi", "the", "re</t>"], Meta.counts);
    GroupExact(["hi", "the", "re</t>"], Meta.counts, Join, 0);
    assert PrefixTable(Meta.counts)[0] == 0 && PrefixTable(Meta.counts)[1] == 1;
    assert ["hi", "the", "re</t>"][0..1] == ["hi"];
    assert words[0] == "hi";
    assert !IsTerminal("hi");
  }

  /** The doctest's sequence passes the checks; its full tokens are
      `hi</t>` and `there</t>`. */
  lemma Fixture()
    ensures Construct(SubTokens, Tokens, Meta, true) == Ok(Sub)
    ensures FullWords(Tokens, Meta.counts) == ["hi</t>", "there</t>"]
  {
    var t := PrefixTable(Meta.counts);
    PrefixTableEntry(Meta.counts, 1);
    PrefixTableEntry(Meta.counts, 2);
    assert Meta.counts[..1] == [1];
    assert Meta.counts[..2] == Meta.counts;
    assert t == [0, 1, 3];
    GroupExact(Tokens, Meta.counts, Join, 0);
    GroupExact(Tokens, Meta.counts, Join, 1);
    assert Tokens[0..1] == ["hi</t>"];
    assert Tokens[1..3] == ["the", "re</t>"];
    assert Join(["the", "re</t>"]) == "the" + ("re</t>" + "");
    assert Join(["hi</t>"]) == "hi</t>" + "";
    var words := FullWords(Tokens, Meta.counts);
    assert words[0] == "hi</t>";
    assert words[1] == "there</t>";
    assert words == ["hi</t>", "there</t>"];
    assert IsTerminal("hi</t>");
    assert "there</t>"[5..] == "</t>";
    assert IsTerminal("there</t>");
  }

  /** Both views of the doctest's data are well formed, and each is the
      other's view conversion. */
  lemma Views()
    ensures WellFormed(Sub) && WellFormed(Full)
    ensures FullTokensView(Sub, false) == Ok(Full)
    ensures SubTokenView(Full) == Ok(Sub)
    ensures Length(Sub) == Ok(3)
  {
    Fixture();
  }

  /** `sub[0]` is the synchronized sub view of `hi</t>` alone, with the index
      table of that one full token. */
  lemma SubFirst()
    ensures SubView.GetItem(Sub, Index(0)).Ok?
    ensures SubView.GetItem(Sub, Index(0)).value.Synced?
    ensures SubView.GetItem(Sub, Index(0)).value.sequence
            == TokenSequence(SubTokens, ["hi</t>"], Metadata([1], ["TypeA"]), true, [0, 1])
  {
    SubBoundaries();
    PieceFirst();
    assert Tokens[0..1] == ["hi</t>"];
    assert Meta.counts[0..1] == [1];
    assert Meta.types[0..1] == ["TypeA"];
  }

  /** `sub[1:]` starts at the boundary of `there</t>` and runs to the end, so
      it stays synchronized: the sub view of that full token alone. */
  lemma SubRest()
    ensures SubView.GetItem(Sub, Slice(Some(1), None, None)).Ok?
    ensures SubView.GetItem(Sub, Slice(Some(1), None, None)).value.Synced?
    ensures SubView.GetItem(Sub, Slice(Some(1), None, None)).value.sequence
            == TokenSequence(SubTokens, ["the", "re</t>"], Metadata([2], ["TypeA"]), true, [0, 2])
  {
    SubBoundaries();
    PieceRest();
    assert Tokens[1..3] == ["the", "re</t>"];
    assert Meta.counts[1..2] == [2];
    assert Meta.types[1..2] == ["TypeA"];
  }

  /** Sub-token offsets 0, 1 and the end are the starts of full tokens 0, 1
      and the end. */
  lemma SubBoundaries()
    ensures SubToFullIndex(Sub, Some(0)) == Ok(Some(0))
    ensures SubToFullIndex(Sub, Some(1)) == Ok(Some(1))
    ensures SubToFullIndex(Sub, None) == Ok(None)
  {
    assert SubToFull(Sub, 0) == Some(0);
    assert SubToFull(Sub, 1) == Some(1);
  }

  /** The sub-tokens of `hi</t>` alone pass the construction checks. */
  lemma PieceFirst()
    ensures Construct(SubTokens, ["hi</t>"], Metadata([1], ["TypeA"]), true)
            == Ok(TokenSequence(SubTokens, ["hi</t>"], Metadata([1], ["TypeA"]), true, [0, 1]))
  {
    var toks := ["hi</t>"];
    PrefixTableEntry([1], 1);
    PrefixTableEntry([1], 0);
    assert [1][..1] == [1];
    assert PrefixTable([1]) == [0, 1];
    GroupExact(toks, [1], Join, 0);
    assert toks[0..1] == toks;
    assert Join(toks) == "hi</t>" + "";
    var w := FullWords(toks, [1]);
    assert w[0] == "hi</t>";
    assert IsTerminal("hi</t>");
  }

  /** The sub-tokens of `there</t>` alone pass the construction checks. */
  lemma PieceRest()
    ensures Construct(SubTokens, ["the", "re</t>"], Metadata([2], ["TypeA"]), true)
            == Ok(TokenSequence(SubTokens, ["the", "re</t>"], Metadata([2], ["TypeA"]), true, [0, 2]))
  {
    var toks := ["the", "re</t>"];
    PrefixTableEntry([2], 1);
    PrefixTableEntry([2], 0);
    assert [2][..1] == [2];
    assert PrefixTable([2]) == [0, 2];
    GroupExact(toks, [2], Join, 0);
    assert toks[0..2] == toks;
    assert Join(toks) == "the" + ("re</t>" + "");
    var w := FullWords(toks, [2]);
    assert w[0] == "there</t>";
    assert "there</t>"[5..] == "</t>";
    assert IsTerminal("there</t>");
  }

  /** `(sub[0] + sub[1:]).full_tokens_view()`: the two synchronized pieces
      concatenate into a sub view whose tables are still those of `sub[0]`,
      and converting it to the full view rebuilds them, giving back the full
      view of the whole docstring sequence, whose items under the default
      formatter are `[['hi</t>'], ['the', 're</t>']]`. */
  lemma RejoinedView()
    ensures SubView.GetItem(Sub, Index(0)).Ok? && SubView.GetItem(Sub, Slice(Some(1), None, None)).Ok?
    ensures var j := Add(SubView.GetItem(Sub, Index(0)).value, SubView.GetItem(Sub, Slice(Some(1), None, None)).value);
            && j.Ok? && j.value.Synced?
            && j.value.sequence.table == [0, 1]
            && FullTokensView(j.value.sequence, false) == Ok(Full)
    ensures Group(Full.tokens, Full.meta.counts, (g: seq<string>) => g) == [["hi</t>"], ["the", "re</t>"]]
  {
    SubFirst();
    SubRest();
    RejoinPieces(SubView.GetItem(Sub, Index(0)).value.sequence,
                 SubView.GetItem(Sub, Slice(Some(1), None, None)).value.sequence);
    FullGroups();
  }

  /** Under the default formatter the full view's items are the lists of
      sub-tokens of each full token. */
  lemma FullGroups()
    ensures Group(Full.tokens, Full.meta.counts, (g: seq<string>) => g) == [["hi</t>"], ["the", "re</t>"]]
  {
    var id := (g: seq<string>) => g;
    GroupExact(Tokens, Meta.counts, id, 0);
    GroupExact(Tokens, Meta.counts, id, 1);
    assert PrefixTable(Meta.counts) == [0, 1, 3];
    assert Tokens[0..1] == ["hi</t>"];
    assert Tokens[1..3] == ["the", "re</t>"];
  }

  /** The concatenation and view conversion of the scenario above, for any
      synchronized pieces holding `sub[0]` and `sub[1:]`. */
  lemma RejoinPieces(x: TokenSequence, y: TokenSequence)
    requires x == TokenSequence(SubTokens, ["hi</t>"], Metadata([1], ["TypeA"]), true, [0, 1])
    requires y.tokens == ["the", "re</t>"] && y.meta == Metadata([2], ["TypeA"])
    ensures Add(Synced(x), Synced(y)).Ok? && Add(Synced(x), Synced(y)).value.Synced?
    ensures Add(Synced(x), Synced(y)).value.sequence.table == [0, 1]
    ensures FullTokensView(Add(Synced(x), Synced(y)).value.sequence, false) == Ok(Full)
  {
    Views();
    var j := Add(Synced(x), Synced(y)).value.sequence;
    assert j.tokens == Tokens;
    assert j.meta == Meta;
  }

  /** `sub[1]` ends inside the full token `there</t>` and degrades to a
      surrogate holding `['the']`. */
  lemma SubSecond()
    ensures SubView.GetItem(Sub, Index(1)) == Ok(Surrogate(["the"]))
  {
    assert SubToFull(Sub, 2) == None;
    assert Tokens[1..2] == ["the"];
  }

  /** `sub[2:]` starts inside the full token `there</t>`, so it degrades too. */
  lemma SubTail()
    ensures SubView.GetItem(Sub, Slice(Some(2), None, None)) == Ok(Surrogate(["re</t>"]))
  {
    assert SubToFull(Sub, 2) == None;
    assert Tokens[2..3] == ["re</t>"];
  }

  /** `sub[0] + sub[1] + sub[2:]` is a surrogate of all three sub-tokens:
      synchronized plus surrogate degrades, and surrogates concatenate. The
      mirror image `sub[1] + sub[0]` is refused. */
  lemma ConcatenationScenario()
    ensures SubView.GetItem(Sub, Index(0)).Ok? && SubView.GetItem(Sub, Index(1)).Ok?
    ensures SubView.GetItem(Sub, Slice(Some(2), None, None)).Ok?
    ensures var a := SubView.GetItem(Sub, Index(0)).value;
            var b := SubView.GetItem(Sub, Index(1)).value;
            var c := SubView.GetItem(Sub, Slice(Some(2), None, None)).value;
            && Add(a, b) == Ok(Surrogate(["hi</t>", "the"]))
            && Add(Add(a, b).value, c) == Ok(Surrogate(Tokens))
            && Add(b, a) == Err(WrongOperand)
  {
    SubFirst();
    SubSecond();
    SubTail();
    PiecesConcatenate(SubView.GetItem(Sub, Index(0)).value.sequence);
  }

  /** The concatenations of the scenario above, for any synchronized `sub[0]`
      holding `hi</t>`. */
  lemma PiecesConcatenate(s: TokenSequence)
    requires s.tokens == ["hi</t>"]
    ensures Add(Synced(s), Surrogate(["the"])) == Ok(Surrogate(["hi</t>", "the"]))
    ensures Add(Surrogate(["hi</t>", "the"]), Surrogate(["re</t>"])) == Ok(Surrogate(Tokens))
    ensures Add(Surrogate(["the"]), Synced(s)) == Err(WrongOperand)
  {
    assert ["hi</t>"] + ["the"] == ["hi</t>", "the"];
    assert ["hi</t>", "the"] + ["re</t>"] == Tokens;
  }

  /** The full view has two full tokens. */
  lemma FullLength()
    ensures Length(Full) == Ok(2)
  {
    Views();
    FreshLength(Full);
  }

  /** `full[-10:10]` selects every full token. */
  lemma FullSliceAll()
    ensures FullView.GetItem(Full, Slice(Some(-10), Some(10), None)).Ok?
    ensures FullView.GetItem(Full, Slice(Some(-10), Some(10), None)).value.tokens == Tokens
  {
    Views();
    FullView.SliceContent(Full, Some(-10), Some(10));
    assert Tokens[0..3] == Tokens;
  }

  /** `full[:]` and `full[0:2]` select every full token. */
  lemma FullSliceWhole()
    ensures FullView.GetItem(Full, Slice(None, None, None)) == Ok(Full)
    ensures FullView.GetItem(Full, Slice(Some(0), Some(2), None)) == Ok(Full)
  {
    Views();
    FullView.SliceContent(Full, None, None);
    FullView.SliceContent(Full, Some(0), Some(2));
    assert Tokens[0..3] == Tokens;
    assert Meta.counts[0..2] == Meta.counts;
    assert Meta.types[0..2] == Meta.types;
  }

  /** `full[-2:]` counts back over both full tokens and selects them all. */
  lemma FullSliceFromEnd()
    ensures FullView.GetItem(Full, Slice(Some(-2), None, None)) == Ok(Full)
  {
    Views();
    FullView.SliceContent(Full, Some(-2), None);
    assert Tokens[0..3] == Tokens;
    assert Meta.counts[0..2] == Meta.counts;
    assert Meta.types[0..2] == Meta.types;
  }

  /** `full[:-1]` selects every full token but the last: `hi</t>` alone. */
  lemma FullSliceButLast()
    ensures FullView.GetItem(Full, Slice(None, Some(-1), None)).Ok?
    ensures FullView.GetItem(Full, Slice(None, Some(-1), None)).value.tokens == ["hi</t>"]
    ensures FullView.GetItem(Full, Slice(None, Some(-1), None)).value.meta.counts == [1]
  {
    Views();
    FullView.SliceContent(Full, None, Some(-1));
    assert Tokens[0..1] == ["hi</t>"];
    assert Meta.counts[0..1] == [1];
  }

  /** `full[1:]` selects the second full token, `there</t>`. */
  lemma FullSliceRest()
    ensures FullView.GetItem(Full, Slice(Some(1), None, None)).Ok?
    ensures FullView.GetItem(Full, Slice(Some(1), None, None)).value.tokens == ["the", "re</t>"]
    ensures FullView.GetItem(Full, Slice(Some(1), None, None)).value.meta.counts == [2]
  {
    Views();
    FullView.SliceContent(Full, Some(1), None);
    assert Tokens[1..3] == ["the", "re</t>"];
    assert Meta.counts[1..2] == [2];
  }

  /** `full[-1:]` selects the last full token, `there</t>`. */
  lemma FullSliceLast()
    ensures FullView.GetItem(Full, Slice(Some(-1), None, None)).Ok?
    ensures FullView.GetItem(Full, Slice(Some(-1), None, None)).value.tokens == ["the", "re</t>"]
  {
    Views();
    FullView.SliceContent(Full, Some(-1), None);
    assert Tokens[1..3] == ["the", "re</t>"];
  }

  /** `full[1:1]` and `full[-2:0]` are empty. */
  lemma FullSliceEmpty()
    ensures FullView.GetItem(Full, Slice(Some(1), Some(1), None)).Ok?
    ensures FullView.GetItem(Full, Slice(Some(1), Some(1), None)).value.tokens == []
    ensures FullView.GetItem(Full, Slice(Some(-2), Some(0), None)).Ok?
    ensures FullView.GetItem(Full, Slice(Some(-2), Some(0), None)).value.tokens == []
  {
    Views();
    FullView.SliceContent(Full, Some(1), Some(1));
    FullView.SliceContent(Full, Some(-2), Some(0));
  }

  /** `full[0]` is the full view of `hi</t>` alone. */
  lemma FullFirst()
    ensures FullView.GetItem(Full, Index(0)).Ok?
    ensures FullView.GetItem(Full, Index(0)).value.tokens == ["hi</t>"]
    ensures FullView.GetItem(Full, Index(0)).value.meta.counts == [1]
  {
    Views();
    FullView.SliceContent(Full, Some(0), Some(1));
    assert FullView.GetItem(Full, Index(0)) == FullView.GetItem(Full, Slice(Some(0), Some(1), None));
    assert Tokens[0..1] == ["hi</t>"];
  }

  /** `full[-1]` as written selects nothing from the doctest's full view;
      with the corrected one-element slice it is `there</t>`'s sub-tokens,
      as `full[-1:]` is. */
  lemma FullLastIndex()
    ensures FullView.GetItem(Full, Index(-1)).Ok?
    ensures FullView.GetItem(Full, Index(-1)).value.tokens == []
    ensures FullView.ItemAt(Full, -1).Ok?
    ensures FullView.ItemAt(Full, -1).value.tokens == ["the", "re</t>"]
    ensures FullView.ItemAt(Full, -1).value.meta.counts == [2]
  {
    Views();
    FullView.LastIndexIsEmpty(Full);
    FullView.ItemAtSelectsOne(Full, -1);
    assert Tokens[1..3] == ["the", "re</t>"];
  }

  /** `full[1] = full[0]` gives the sub-tokens `['hi</t>', 'hi</t>']`, after
      which `len(full)` raises; with rebuilt tables the length is 2.
      Assigning a string raises. */
  lemma AssignmentScenario(v: TokenSequence)
    requires FullView.GetItem(Full, Index(0)) == Ok(v)
    ensures FullView.SetItem(Full, 1, Synced(v)).Ok?
    ensures FullView.SetItem(Full, 1, Synced(v)).value.tokens == ["hi</t>", "hi</t>"]
    ensures Length(FullView.SetItem(Full, 1, Synced(v)).value).Err?
    ensures Length(FullView.SetItemRebuilt(Full, 1, Synced(v)).value) == Ok(2)
    ensures FullView.SetItem(Full, 1, Foreign) == Err(WrongOperand)
  {
    Views();
    FullFirst();
    FullView.SetItemSplices(Full, 1, v);
    assert Tokens[..1] + ["hi</t>"] + Tokens[3..] == ["hi</t>", "hi</t>"];
    FullView.SetItemBreaksLength(Full, 1, v);
    var r := FullView.SetItemRebuiltIsFresh(Full, 1, v);
  }

  /** Printing `full` after `full[1] = full[0]` shows `['hi</t>', 'hi</t>']`:
      iteration reads only the counts, so the stale tables do not matter. */
  lemma StaleViewItems(v: TokenSequence)
    requires FullView.GetItem(Full, Index(0)) == Ok(v)
    ensures FullView.SetItem(Full, 1, Synced(v)).Ok?
    ensures FullView.Items(FullView.SetItem(Full, 1, Synced(v)).value, Join)
            == [FullView.Plain("hi</t>"), FullView.Plain("hi</t>")]
  {
    var r := StaleView(v);
    TwoItems(r, "hi</t>");
  }

  /** The view `full[1] = full[0]` leaves behind. */
  lemma StaleView(v: TokenSequence) returns (r: TokenSequence)
    requires FullView.GetItem(Full, Index(0)) == Ok(v)
    ensures FullView.SetItem(Full, 1, Synced(v)) == Ok(r)
    ensures r.view == FullTokens(false)
    ensures r.tokens == ["hi</t>", "hi</t>"] && r.meta.counts == [1, 1]
  {
    Views();
    FullFirst();
    FullView.SetItemSplices(Full, 1, v);
    r := FullView.SetItem(Full, 1, Synced(v)).value;
  }

  /** A full view of two one-sub-token full tokens iterates to those tokens. */
  lemma TwoItems(r: TokenSequence, w: string)
    requires r.view == FullTokens(false)
    requires r.tokens == [w, w] && r.meta.counts == [1, 1]
    ensures FullView.Items(r, Join) == [FullView.Plain(w), FullView.Plain(w)]
  {
    var c: seq<nat> := [1, 1];
    PrefixTableEntry(c, 0);
    PrefixTableEntry(c, 1);
    PrefixTableEntry(c, 2);
    assert c[..1] == [1] && c[..2] == c;
    assert Sum([1]) == 1 && Sum(c) == 2;
    assert PrefixTable(c) == [0, 1, 2];
    assert Join([w]) == w + "";
    assert PySlice(r.tokens, Some(0), Some(1)) == [w];
    assert PySlice(r.tokens, Some(1), Some(2)) == [w];
    var items := FullView.Items(r, Join);
    assert w + "" == w;
    assert !items[0].Typed? && !items[1].Typed?;
    assert items[0] == FullView.Plain(w) && items[1] == FullView.Plain(w);
  }

  /** Broadcasting `[1, 2]` over the sub view gives `[1, 2, 2]`; grouping
      `[1, 2, 3]` by the full view gives `[[1], [2, 3]]`. */
  lemma IteratorScenarios()
    ensures SubView.GetIterator(Sub, [1, 2], true) == Ok([1, 2, 2])
    ensures SubView.GetIterator(Sub, [1, 2, 3], false) == Ok([1, 2, 3])
    ensures FullView.GetIterator(Full, [1, 2, 3], false, (g: seq<int>) => g) == FullView.Grouped([[1], [2, 3]])
    ensures FullView.GetIterator(Full, [1, 2], true, (g: seq<int>) => g) == FullView.Unchanged([1, 2])
  {
    var over: seq<int> := [1, 2];
    var counts := Meta.counts;
    assert over[..1] == [1] && [1][..0] == [];
    assert Spread([1], counts) == Spread([], counts) + Repeat(1, Copies(1));
    assert Repeat(1, 1) == [1];
    assert Spread(over, counts) == Spread([1], counts) + Repeat(2, Copies(2));
    assert Repeat(2, 2) == [2, 2];
    assert Spread(over, counts) == [1, 2, 2];
    var id := (g: seq<int>) => g;
    var groups := Group([1, 2, 3], counts, id);
    GroupExact([1, 2, 3], counts, id, 0);
    GroupExact([1, 2, 3], counts, id, 1);
    assert PrefixTable(counts) == [0, 1, 3];
    assert [1, 2, 3][0..1] == [1];
    assert [1, 2, 3][1..3] == [2, 3];
    assert groups == [[1], [2, 3]];
  }

  /** Broadcasting three values over the two full tokens yields `1, 2, 2`
      before the iterator runs out of counts and raises. */
  lemma IteratorOverrun()
    ensures SubView.GetIterator(Sub, [1, 2, 3], true) == Err(CountsExhausted([1, 2, 2]))
  {
    var over: seq<int> := [1, 2, 3];
    var counts := Meta.counts;
    assert over[..2] == [1, 2];
    assert [1, 2][..1] == [1] && [1][..0] == [];
    assert Spread([1], counts) == Spread([], counts) + Repeat(1, Copies(1));
    assert Repeat(1, 1) == [1];
    assert Spread([1, 2], counts) == Spread([1], counts) + Repeat(2, Copies(2));
    assert Repeat(2, 2) == [2, 2];
    assert Spread([1, 2], counts) == [1, 2, 2];
  }
}

=== FILE: fullview.dfy ===
/** `PreppedFullTokenSequence`: the sequence indexed and iterated one full
    token at a time. */
module FullView {
  import opened Wrappers
  import opened Lists
  import opened Iterators
  import opened Sequence

  /** `__getitem__`: bounds are converted to sub-token offsets through the
      index table to cut the tokens, while the metadata is cut with the raw
      bounds; the result is validated like any new sequence. */
  function GetItem(s: TokenSequence, key: Key): (r: Result<TokenSequence, Error>)
    requires s.view.FullTokens?
    ensures key.Slice? && key.step.Some? ==> r == Err(StepGiven)
    ensures r.Ok? ==> WellFormed(r.value) && r.value.view == s.view && r.value.wordEndAdded == s.wordEndAdded
  {
    var b :- Bounds(key);
    var start :- FullToSubIndex(s, b.0);
    var stop :- FullToSubIndex(s, b.1);
    Construct(s.view, PySlice(s.tokens, start, stop),
              Metadata(PySlice(s.meta.counts, b.0, b.1), PySlice(s.meta.types, b.0, b.1)),
              s.wordEndAdded)
  }

  /** On a fresh full view, a converted bound cuts the tokens exactly where
      the raw bound cuts the full tokens: at the table entry of the resolved
      full-token index. */
  lemma FullToSubFresh(s: TokenSequence, b: Option<int>)
    requires WellFormed(s) && s.view.FullTokens?
    ensures |s.table| == |s.meta.counts| + 1
    ensures FullToSubIndex(s, b).Ok?
    ensures ResolveStart(FullToSubIndex(s, b).value, |s.tokens|) == s.table[ResolveStart(b, |s.meta.counts|)]
    ensures ResolveStop(FullToSubIndex(s, b).value, |s.tokens|) == s.table[ResolveStop(b, |s.meta.counts|)]
  {
    var c := s.meta.counts;
    FreshLength(s);
    PrefixTableEntry(c, |c|);
    PrefixTableEntry(c, 0);
    assert c[..|c|] == c;
    if b.Some? {
      var p := Normalize(b.value, |c|);
      PrefixTableSpan(c, p.k, |c|);
    }
  }

  /** On a fresh full view, a slice is the construction over the window of
      sub-tokens between the table entries of the resolved bounds. */
  lemma SliceIsWindow(s: TokenSequence, start: Option<int>, stop: Option<int>)
    requires WellFormed(s) && s.view.FullTokens?
    ensures |s.table| == |s.meta.counts| + 1
    ensures var k1 := ResolveStart(start, |s.meta.counts|);
            var k2 := ResolveStop(stop, |s.meta.counts|);
            GetItem(s, Slice(start, stop, None))
            == Construct(s.view, PySlice(s.tokens, Some(s.table[k1]), Some(s.table[k2])),
                         Metadata(PySlice(s.meta.counts, Some(k1), Some(k2)), PySlice(s.meta.types, start, stop)),
                         s.wordEndAdded)
  {
    WindowBounds(s, start, stop);
  }

  /** The converted bounds of a full-view slice select the sub-tokens between
      the table entries of the resolved bounds, and the raw slice of the
      counts is the slice between the resolved bounds. */
  lemma WindowBounds(s: TokenSequence, start: Option<int>, stop: Option<int>)
    requires WellFormed(s) && s.view.FullTokens?
    ensures |s.table| == |s.meta.counts| + 1
    ensures FullToSubIndex(s, start).Ok? && FullToSubIndex(s, stop).Ok?
    ensures var k1 := ResolveStart(start, |s.meta.counts|);
            var k2 := ResolveStop(stop, |s.meta.counts|);
            && PySlice(s.tokens, FullToSubIndex(s, start).value, FullToSubIndex(s, stop).value)
               == PySlice(s.tokens, Some(s.table[k1]), Some(s.table[k2]))
            && PySlice(s.meta.counts, start, stop) == PySlice(s.meta.counts, Some(k1), Some(k2))
  {
    var c := s.meta.counts;
    var k1 := ResolveStart(start, |c|);
    var k2 := ResolveStop(stop, |c|);
    FullToSubFresh(s, start);
    FullToSubFresh(s, stop);
    PySliceResolved(c, start, stop);
    PySliceResolved(s.tokens, FullToSubIndex(s, start).value, FullToSubIndex(s, stop).value);
    PrefixTableEntry(c, |c|);
    assert c[..|c|] == c;
    PrefixTableSpan(c, k1, |c|);
    PrefixTableSpan(c, k2, |c|);
  }

  /** The content of a slice of a fresh full view: the sub-tokens of the
      selected full tokens and the metadata sliced alike. */
  lemma SliceContent(s: TokenSequence, start: Option<int>, stop: Option<int>)
    requires WellFormed(s) && s.view.FullTokens?
    ensures |s.table| == |s.meta.counts| + 1
    ensures GetItem(s, Slice(start, stop, None)).Ok?
    ensures var r := GetItem(s, Slice(start, stop, None)).value;
            var k1 := ResolveStart(start, |s.meta.counts|);
            var k2 := ResolveStop(stop, |s.meta.counts|);
            && (k1 < k2 ==> s.table[k1] <= s.table[k2] <= |s.tokens|)
            && r.tokens == (if k1 < k2 then s.tokens[s.table[k1]..s.table[k2]] else [])
            && r.meta == Metadata(PySlice(s.meta.counts, start, stop), PySlice(s.meta.types, start, stop))
  {
    var k1 := ResolveStart(start, |s.meta.counts|);
    var k2 := ResolveStop(stop, |s.meta.counts|);
    WindowBounds(s, start, stop);
    SliceIsWindow(s, start, stop);
    SliceWindow(s, k1, k2);
    SliceBetween(s, s.view, k1, k2, PySlice(s.meta.types, start, stop), Join);
  }


  /** Slicing a fresh full view never fails: the result holds exactly the
      sub-tokens of the selected full tokens, its metadata is the metadata
      sliced alike, it has one full token per selected full token, and its
      full tokens are those of the original. */
  lemma SliceExact<R>(s: TokenSequence, start: Option<int>, stop: Option<int>, f: seq<string> -> R)
    requires WellFormed(s) && s.view.FullTokens?
    ensures |s.table| == |s.meta.counts| + 1
    ensures GetItem(s, Slice(start, stop, None)).Ok?
    ensures var r := GetItem(s, Slice(start, stop, None)).value;
            var k1 := ResolveStart(start, |s.meta.counts|);
            var k2 := ResolveStop(stop, |s.meta.counts|);
            && (k1 < k2 ==> s.table[k1] <= s.table[k2] <= |s.tokens|)
            && r.tokens == (if k1 < k2 then s.tokens[s.table[k1]..s.table[k2]] else [])
            && r.meta == Metadata(PySlice(s.meta.counts, start, stop), PySlice(s.meta.types, start, stop))
            && |r.meta.counts| == (if k1 < k2 then k2 - k1 else 0) && Length(r) == Ok(|r.meta.counts|)
            && Group(r.tokens, r.meta.counts, f) == (if k1 < k2 then Group(s.tokens, s.meta.counts, f)[k1..k2] else [])
  {
    SliceContent(s, start, stop);
    var r := SliceGroups(s, start, stop, f);
    SliceLength(s, start, stop, r);
  }

  /** A slice of a fresh full view has one full token per selected full token. */
  lemma SliceLength(s: TokenSequence, start: Option<int>, stop: Option<int>, r: TokenSequence)
    requires WellFormed(s) && s.view.FullTokens?
    requires GetItem(s, Slice(start, stop, None)) == Ok(r)
    ensures var k1 := ResolveStart(start, |s.meta.counts|);
            var k2 := ResolveStop(stop, |s.meta.counts|);
            |r.meta.counts| == (if k1 < k2 then k2 - k1 else 0) && Length(r) == Ok(|r.meta.counts|)
  {
    var k1 := ResolveStart(start, |s.meta.counts|);
    var k2 := ResolveStop(stop, |s.meta.counts|);
    SliceIsWindow(s, start, stop);
    assert r.meta.counts == PySlice(s.meta.counts, Some(k1), Some(k2));
    PySliceLength(s.meta.counts, k1, k2);
    FreshLength(r);
  }

  /** The grouping of a slice of a fresh full view. */
  lemma SliceGroups<R>(s: TokenSequence, start: Option<int>, stop: Option<int>, f: seq<string> -> R)
    returns (r: TokenSequence)
    requires WellFormed(s) && s.view.FullTokens?
    ensures GetItem(s, Slice(start, stop, None)) == Ok(r)
    ensures var k1 := ResolveStart(start, |s.meta.counts|);
            var k2 := ResolveStop(stop, |s.meta.counts|);
            Group(r.tokens, r.meta.counts, f) == (if k1 < k2 then Group(s.tokens, s.meta.counts, f)[k1..k2] else [])
  {
    var k1 := ResolveStart(start, |s.meta.counts|);
    var k2 := ResolveStop(stop, |s.meta.counts|);
    SliceIsWindow(s, start, stop);
    SliceBetween(s, s.view, k1, k2, PySlice(s.meta.types, start, stop), f);
    r := GetItem(s, Slice(start, stop, None)).value;
  }

  /** `full[-1]` as written: the index becomes the slice `[-1:0]`, which
      selects nothing, so the last full token cannot be reached by an
      integer index. */
  lemma LastIndexIsEmpty(s: TokenSequence)
    requires WellFormed(s) && s.view.FullTokens? && |s.meta.counts| > 0
    ensures GetItem(s, Index(-1)).Ok?
    ensures GetItem(s, Index(-1)).value.tokens == []
    ensures GetItem(s, Index(-1)).value.meta.counts == []
  {
    assert GetItem(s, Index(-1)) == GetItem(s, Slice(Some(-1), Some(0), None));
    SliceContent(s, Some(-1), Some(0));
  }

  /** The stop of the one-element slice for integer index i: `i + 1`, except
      that after -1 the slice runs to the end. */
  function IndexStop(i: int): (r: Option<int>)
    ensures r.None? <==> i == -1
    ensures r.Some? ==> r.value == i + 1
  {
    if i == -1 then None else Some(i + 1)
  }

  /** `full[i]` with the one-element slice built so that -1 reaches the last
      full token. */
  function ItemAt(s: TokenSequence, i: int): (r: Result<TokenSequence, Error>)
    requires s.view.FullTokens?
    ensures r.Ok? ==> WellFormed(r.value) && r.value.view == s.view && r.value.wordEndAdded == s.wordEndAdded
  {
    GetItem(s, Slice(Some(i), IndexStop(i), None))
  }

  /** On a fresh full view every index i with -n <= i < n selects exactly
      full token i (counted from the end when negative), with its count. */
  lemma ItemAtSelectsOne(s: TokenSequence, i: int)
    requires WellFormed(s) && s.view.FullTokens?
    requires -|s.meta.counts| <= i < |s.meta.counts|
    ensures |s.table| == |s.meta.counts| + 1
    ensures ItemAt(s, i).Ok?
    ensures var k := if i < 0 then i + |s.meta.counts| else i;
            && s.table[k] <= s.table[k + 1] <= |s.tokens|
            && ItemAt(s, i).value.tokens == s.tokens[s.table[k]..s.table[k + 1]]
            && ItemAt(s, i).value.meta.counts == [s.meta.counts[k]]
  {
    IndexBounds(s.meta.counts, i);
    SliceContent(s, Some(i), IndexStop(i));
  }

  /** The corrected one-element slice of an in-range index i resolves to the
      bounds k and k + 1 and holds exactly element k. */
  lemma IndexBounds<T>(xs: seq<T>, i: int)
    requires -|xs| <= i < |xs|
    ensures var k := if i < 0 then i + |xs| else i;
            && ResolveStart(Some(i), |xs|) == k
            && ResolveStop(IndexStop(i), |xs|) == k + 1
            && PySlice(xs, Some(i), IndexStop(i)) == [xs[k]]
  {
  }

  /** One element produced by iterating the full view: the formatted full
      token, paired with its type when `return_token_type` is set. */
  datatype Item<R> = Plain(value: R) | Typed(value: R, tokenType: TokenType)

  /** `__iter__`: the formatter applied to each full token's sub-tokens, zipped
      with the token types when `return_token_type` is set (`zip` stops at the
      shorter list). */
  function Items<R>(s: TokenSequence, f: seq<string> -> R): (r: seq<Item<R>>)
    requires s.view.FullTokens?
    ensures |r| == if s.view.returnTokenType then Min(|s.meta.counts|, |s.meta.types|) else |s.meta.counts|
    ensures forall i :: 0 <= i < |r| ==> (r[i].Typed? <==> s.view.returnTokenType)
    ensures forall i :: 0 <= i < |r| && r[i].Typed? ==> r[i].tokenType == s.meta.types[i]
    ensures forall i :: 0 <= i < |r| ==>
              r[i].value == f(PySlice(s.tokens, Some(PrefixTable(s.meta.counts)[i]), Some(PrefixTable(s.meta.counts)[i + 1])))
  {
    var values := Group(s.tokens, s.meta.counts, f);
    if s.view.returnTokenType then
      seq(Min(|values|, |s.meta.types|), i requires 0 <= i < Min(|values|, |s.meta.types|) => Typed(values[i], s.meta.types[i]))
    else
      seq(|values|, i requires 0 <= i < |values| => Plain(values[i]))
  }

  function Min(a: nat, b: nat): nat {
    if a < b then a else b
  }

  /** Whenever the tokens and the counts agree, the i-th item is the formatter
      applied to exactly the sub-tokens of full token i. Iteration reads only
      the counts, so this holds for a view whose stored tables are stale. */
  lemma ItemsAreFullTokens<R>(s: TokenSequence, f: seq<string> -> R, i: nat)
    requires s.view.FullTokens? && |s.tokens| == Sum(s.meta.counts)
    requires i < |Items(s, f)|
    ensures |PrefixTable(s.meta.counts)| == |s.meta.counts| + 1
    ensures PrefixTable(s.meta.counts)[i] <= PrefixTable(s.meta.counts)[i + 1] <= |s.tokens|
    ensures Items(s, f)[i].value == f(s.tokens[PrefixTable(s.meta.counts)[i]..PrefixTable(s.meta.counts)[i + 1]])
  {
    GroupExact(s.tokens, s.meta.counts, f, i);
  }

  /** What `get_iterator` hands back: `over` itself, or `over` grouped. */
  datatype Aligned<A, R> = Unchanged(items: seq<A>) | Grouped(groups: seq<R>)

  /** `get_iterator(over, over_full_tokens, formatter)`: data already at
      full-token granularity passes through; sub-token data is grouped by the
      metadata's counts, as the view groups its own tokens. */
  function GetIterator<A, R>(s: TokenSequence, over: seq<A>, overFullTokens: bool, f: seq<A> -> R): (r: Aligned<A, R>)
    requires s.view.FullTokens?
    ensures overFullTokens ==> r == Unchanged(over)
    ensures !overFullTokens ==> r.Grouped? && |r.groups| == |s.meta.counts|
    ensures !overFullTokens ==>
              forall i :: 0 <= i < |s.meta.counts| ==>
                r.groups[i] == f(PySlice(over, Some(PrefixTable(s.meta.counts)[i]), Some(PrefixTable(s.meta.counts)[i + 1])))
  {
    if overFullTokens then Unchanged(over) else Grouped(Group(over, s.meta.counts, f))
  }

  /** `__setitem__(key, value)` as written: `self[:key] + value + self[key+1:]`,
      whose state the view then adopts, index tables of `self[:key]` included. */
  function SetItem(s: TokenSequence, key: int, value: Value): (r: Result<TokenSequence, Error>)
    requires s.view.FullTokens?
    ensures !(value.Synced? && value.sequence.view.FullTokens?) ==> r == Err(WrongOperand)
    ensures r.Ok? ==> r.value.view == s.view && r.value.wordEndAdded == s.wordEndAdded
  {
    if !(value.Synced? && value.sequence.view.FullTokens?) then Err(WrongOperand)
    else
      var prefix :- GetItem(s, Slice(None, Some(key), None));
      var withValue := Append(prefix, value.sequence);
      var suffix :- GetItem(s, Slice(Some(key + 1), None, None));
      Ok(Append(withValue, suffix))
  }

  /** On a fresh full view and an index in range, assignment splices: the
      tokens and metadata are those before full token `key`, then the
      value's, then those after it. The tables are those of the prefix. */
  lemma SetItemSplices(s: TokenSequence, key: nat, v: TokenSequence)
    requires WellFormed(s) && s.view.FullTokens? && v.view.FullTokens?
    requires key < |s.meta.counts|
    ensures |s.table| == |s.meta.counts| + 1
    ensures s.table[key] <= s.table[key + 1] <= |s.tokens|
    ensures SetItem(s, key, Synced(v)).Ok?
    ensures var r := SetItem(s, key, Synced(v)).value;
            && r.tokens == s.tokens[..s.table[key]] + v.tokens + s.tokens[s.table[key + 1]..]
            && r.meta.counts == s.meta.counts[..key] + v.meta.counts + s.meta.counts[key + 1..]
            && r.meta.types == PySlice(s.meta.types, None, Some(key)) + v.meta.types + PySlice(s.meta.types, Some(key + 1), None)
            && r.table == PrefixTable(s.meta.counts[..key])
  {
    SpliceBounds(s, key);
    PrefixPart(s, key);
    SuffixPart(s, key);
  }

  /** The boundaries of full token `key` lie in order inside the tokens. */
  lemma SpliceBounds(s: TokenSequence, key: nat)
    requires WellFormed(s)
    requires key < |s.meta.counts|
    ensures |s.table| == |s.meta.counts| + 1
    ensures s.table[key] <= s.table[key + 1] <= |s.tokens|
  {
    var c := s.meta.counts;
    PrefixTableEntry(c, |c|);
    assert c[..|c|] == c;
    PrefixTableSpan(c, key, key + 1);
    PrefixTableSpan(c, key + 1, |c|);
  }

  lemma PrefixPart(s: TokenSequence, key: nat)
    requires WellFormed(s) && s.view.FullTokens?
    requires key < |s.meta.counts|
    ensures |s.table| == |s.meta.counts| + 1
    ensures s.table[key] <= |s.tokens|
    ensures GetItem(s, Slice(None, Some(key), None)).Ok?
    ensures var p := GetItem(s, Slice(None, Some(key), None)).value;
            && p.tokens == s.tokens[..s.table[key]]
            && p.meta.counts == s.meta.counts[..key]
            && p.meta.types == PySlice(s.meta.types, None, Some(key))
            && p.table == PrefixTable(s.meta.counts[..key])
  {
    var c := s.meta.counts;
    SliceContent(s, None, Some(key));
    PrefixTableEntry(c, |c|);
    PrefixTableEntry(c, 0);
    assert c[..|c|] == c;
    PrefixTableSpan(c, key, |c|);
    if key == 0 {
      assert s.tokens[..s.table[0]] == [];
      assert c[..0] == [];
    }
  }

  lemma SuffixPart(s: TokenSequence, key: nat)
    requires WellFormed(s) && s.view.FullTokens?
    requires key < |s.meta.counts|
    ensures |s.table| == |s.meta.counts| + 1
    ensures s.table[key + 1] <= |s.tokens|
    ensures GetItem(s, Slice(Some(key + 1), None, None)).Ok?
    ensures var p := GetItem(s, Slice(Some(key + 1), None, None)).value;
            && p.tokens == s.tokens[s.table[key + 1]..]
            && p.meta.counts == s.meta.counts[key + 1..]
            && p.meta.types == PySlice(s.meta.types, Some(key + 1), None)
  {
    var c := s.meta.counts;
    SliceContent(s, Some(key + 1), None);
    PrefixTableEntry(c, |c|);
    assert c[..|c|] == c;
    PrefixTableSpan(c, key + 1, |c|);
    if key + 1 == |c| {
      assert s.tokens[s.table[key + 1]..] == [];
    }
  }

  /** Assigning any non-empty full view into a fresh full view leaves it
      unable to report its length: `len` raises. */
  lemma SetItemBreaksLength(s: TokenSequence, key: nat, v: TokenSequence)
    requires WellFormed(s) && s.view.FullTokens? && v.view.FullTokens?
    requires key < |s.meta.counts|
    requires |v.tokens| > 0
    ensures SetItem(s, key, Synced(v)).Ok?
    ensures Length(SetItem(s, key, Synced(v)).value).Err?
  {
    PrefixPart(s, key);
    SuffixPart(s, key);
    var prefix := GetItem(s, Slice(None, Some(key), None)).value;
    var suffix := GetItem(s, Slice(Some(key + 1), None, None)).value;
    assert SetItem(s, key, Synced(v)) == Ok(Append(Append(prefix, v), suffix));
    AppendAssociative(prefix, v, suffix);
    AppendLeavesStaleTable(prefix, Append(v, suffix));
  }

  /** `__setitem__` as evidently intended: the same splice, with index tables
      rebuilt for the new content. */
  function SetItemRebuilt(s: TokenSequence, key: int, value: Value): (r: Result<TokenSequence, Error>)
    requires s.view.FullTokens?
    ensures !(value.Synced? && value.sequence.view.FullTokens?) ==> r == Err(WrongOperand)
    ensures r.Ok? ==> r.value.view == s.view && r.value.wordEndAdded == s.wordEndAdded
    ensures r.Ok? ==> r.value.table == PrefixTable(r.value.meta.counts)
  {
    var spliced :- SetItem(s, key, value);
    Ok(spliced.(table := PrefixTable(spliced.meta.counts)))
  }

  /** With the tables rebuilt, assigning a fresh full view at an index in
      range leaves a fresh full view whose length counts the value's full
      tokens in place of the replaced one. */
  lemma SetItemRebuiltIsFresh(s: TokenSequence, key: nat, v: TokenSequence) returns (r: TokenSequence)
    requires WellFormed(s) && WellFormed(v) && s.view.FullTokens? && v.view.FullTokens?
    requires s.wordEndAdded ==> v.wordEndAdded
    requires key < |s.meta.counts|
    ensures SetItemRebuilt(s, key, Synced(v)) == Ok(r)
    ensures WellFormed(r) && r.view == s.view
    ensures |r.meta.counts| == |s.meta.counts| - 1 + |v.meta.counts| && Length(r) == Ok(|r.meta.counts|)
  {
    r := SetItemRebuiltParts(s, key, v);
    FreshLength(r);
  }

  /** The rebuilt assignment result, well formed and with its number of full
      tokens. */
  lemma SetItemRebuiltParts(s: TokenSequence, key: nat, v: TokenSequence) returns (r: TokenSequence)
    requires WellFormed(s) && WellFormed(v) && s.view.FullTokens? && v.view.FullTokens?
    requires s.wordEndAdded ==> v.wordEndAdded
    requires key < |s.meta.counts|
    ensures SetItemRebuilt(s, key, Synced(v)) == Ok(r)
    ensures WellFormed(r) && r.view == s.view
    ensures |r.meta.counts| == |s.meta.counts| - 1 + |v.meta.counts|
  {
    PrefixPart(s, key);
    SuffixPart(s, key);
    var prefix := GetItem(s, Slice(None, Some(key), None)).value;
    var suffix := GetItem(s, Slice(Some(key + 1), None, None)).value;
    assert SetItem(s, key, Synced(v)) == Ok(Append(Append(prefix, v), suffix));
    AppendStaysInSync(prefix, v);
    var mid := AppendRefreshed(prefix, v);
    AppendStaysInSync(mid, suffix);
    r := AppendRefreshed(mid, suffix);
    assert SetItemRebuilt(s, key, Synced(v)).value == r;
  }
}

=== FILE: iterators.dfy ===
/** The two alignment iterators of the token engine, as finite sequences:
    grouping sub-token-level data up to full tokens, and broadcasting
    full-token-level data down to sub-tokens. Each has a functional
    definition and a cursor-based method that follows the iterator's
    `__next__` step by step. */
module Iterators {
  import opened Wrappers
  import opened Lists

  /** IndexError on `n_subtokens_per_token[current_full_word]`, raised by the
      broadcasting iterator after it has already yielded `emitted`. */
  datatype IterError<A> = CountsExhausted(emitted: seq<A>)

  /** The values grouped from `over` for the full tokens described by `counts`,
      the first of which starts at sub-token offset `start`. */
  function GroupFrom<A, R>(over: seq<A>, counts: seq<nat>, start: nat, f: seq<A> -> R): (r: seq<R>)
    ensures |r| == |counts|
    decreases |counts|
  {
    if |counts| == 0 then []
    else [f(PySlice(over, Some(start), Some(start + counts[0])))] + GroupFrom(over, counts[1..], start + counts[0], f)
  }

  /** Value i of `GroupFrom` is the formatter applied to the window of full token i. */
  lemma {:induction false} GroupFromAt<A, R>(over: seq<A>, counts: seq<nat>, start: nat, f: seq<A> -> R, i: nat)
    requires i < |counts|
    ensures |PrefixTable(counts)| == |counts| + 1
    ensures GroupFrom(over, counts, start, f)[i]
            == f(PySlice(over, Some(start + PrefixTable(counts)[i]), Some(start + PrefixTable(counts)[i + 1])))
    decreases i
  {
    PrefixTableEntry(counts, i);
    PrefixTableEntry(counts, i + 1);
    if i == 0 {
      assert counts[..1] == [counts[0]];
      assert Sum([counts[0]]) == counts[0] + Sum([]);
    } else {
      GroupFromAt(over, counts[1..], start + counts[0], f, i - 1);
      PrefixTableShift(counts, i);
      PrefixTableShift(counts, i + 1);
    }
  }

  /** `_FullOverSubTokenIterator(over, metadata, formatter)`: one value per full
      token, the formatter applied to `over[prefix[i]:prefix[i+1]]`. */
  function Group<A, R>(over: seq<A>, counts: seq<nat>, f: seq<A> -> R): (r: seq<R>)
    ensures |r| == |counts|
    ensures |PrefixTable(counts)| == |counts| + 1
    ensures forall i :: 0 <= i < |counts| ==>
              r[i] == f(PySlice(over, Some(PrefixTable(counts)[i]), Some(PrefixTable(counts)[i + 1])))
  {
    GroupWindows(over, counts, f);
    GroupFrom(over, counts, 0, f)
  }

  lemma GroupWindows<A, R>(over: seq<A>, counts: seq<nat>, f: seq<A> -> R)
    ensures |PrefixTable(counts)| == |counts| + 1
    ensures forall i :: 0 <= i < |counts| ==>
              GroupFrom(over, counts, 0, f)[i]
              == f(PySlice(over, Some(PrefixTable(counts)[i]), Some(PrefixTable(counts)[i + 1])))
  {
    PrefixTableEntry(counts, 0);
    forall i | 0 <= i < |counts|
      ensures GroupFrom(over, counts, 0, f)[i]
              == f(PySlice(over, Some(PrefixTable(counts)[i]), Some(PrefixTable(counts)[i + 1])))
    {
      GroupFromAt(over, counts, 0, f, i);
    }
  }

  /** The iterator's `__next__` loop: a cursor over full tokens and a running
      sub-token offset. */
  method GroupIter<A, R>(over: seq<A>, counts: seq<nat>, f: seq<A> -> R) returns (r: seq<R>)
    ensures |r| == |counts|
    ensures forall i :: 0 <= i < |counts| ==>
              r[i] == f(PySlice(over, Some(PrefixTable(counts)[i]), Some(PrefixTable(counts)[i + 1])))
  {
    r := [];
    var fullWord := 0;
    var index := 0;
    while fullWord < |counts|
      invariant fullWord <= |counts|
      invariant |r| == fullWord
      invariant index == PrefixTable(counts)[fullWord]
      invariant forall i :: 0 <= i < fullWord ==>
                  r[i] == f(PySlice(over, Some(PrefixTable(counts)[i]), Some(PrefixTable(counts)[i + 1])))
    {
      var n := counts[fullWord];
      PrefixTableSpan(counts, fullWord, fullWord + 1);
      assert counts[fullWord..fullWord + 1] == [n];
      assert Sum([n]) == n + Sum([]);
      r := r + [f(PySlice(over, Some(index), Some(index + n)))];
      fullWord := fullWord + 1;
      index := index + n;
    }
  }

  /** When `over` has exactly as many elements as `counts` asks for, the i-th
      group is the exact window of sub-tokens of full token i. */
  lemma GroupExact<A, R>(over: seq<A>, counts: seq<nat>, f: seq<A> -> R, i: nat)
    requires |over| == Sum(counts)
    requires i < |counts|
    ensures |PrefixTable(counts)| == |counts| + 1
    ensures PrefixTable(counts)[i] <= PrefixTable(counts)[i + 1] <= |over|
    ensures Group(over, counts, f)[i] == f(over[PrefixTable(counts)[i]..PrefixTable(counts)[i + 1]])
  {
    var t := PrefixTable(counts);
    PrefixTableSpan(counts, i, i + 1);
    PrefixTableSpan(counts, i + 1, |counts|);
    PrefixTableEntry(counts, |counts|);
    assert counts[..|counts|] == counts;
    var g := Group(over, counts, f);
    assert g[i] == f(PySlice(over, Some(t[i]), Some(t[i + 1])));
    if t[i] == t[i + 1] {
      assert over[t[i]..t[i + 1]] == [];
    }
  }

  /** Grouping a slice of the sub-tokens cut at full-token boundaries k1 and k2
      gives the groups of full tokens k1..k2. */
  lemma GroupSlice<A, R>(over: seq<A>, counts: seq<nat>, f: seq<A> -> R, k1: nat, k2: nat)
    requires |over| == Sum(counts)
    requires k1 <= k2 <= |counts|
    ensures |PrefixTable(counts)| == |counts| + 1
    ensures PrefixTable(counts)[k1] <= PrefixTable(counts)[k2] <= |over|
    ensures |over[PrefixTable(counts)[k1]..PrefixTable(counts)[k2]]| == Sum(counts[k1..k2])
    ensures Group(over[PrefixTable(counts)[k1]..PrefixTable(counts)[k2]], counts[k1..k2], f)
            == Group(over, counts, f)[k1..k2]
  {
    var t := PrefixTable(counts);
    PrefixTableSpan(counts, k1, k2);
    PrefixTableSpan(counts, k2, |counts|);
    PrefixTableEntry(counts, |counts|);
    assert counts[..|counts|] == counts;
    var c' := counts[k1..k2];
    var o' := over[t[k1]..t[k2]];
    var lhs := Group(o', c', f);
    var rhs := Group(over, counts, f)[k1..k2];
    forall i | 0 <= i < |c'| ensures lhs[i] == rhs[i] {
      GroupSliceAt(over, counts, f, k1, k2, t[k1], t[k2], i);
    }
  }

  lemma GroupSliceAt<A, R>(over: seq<A>, counts: seq<nat>, f: seq<A> -> R, k1: nat, k2: nat, lo: nat, hi: nat, i: nat)
    requires |over| == Sum(counts)
    requires k1 <= k2 <= |counts|
    requires |PrefixTable(counts)| == |counts| + 1
    requires lo == PrefixTable(counts)[k1] <= hi == PrefixTable(counts)[k2] <= |over|
    requires hi - lo == Sum(counts[k1..k2])
    requires i < k2 - k1
    ensures Group(over[lo..hi], counts[k1..k2], f)[i] == Group(over, counts, f)[k1 + i]
  {
    PrefixTableSpan(counts, k1 + i, k1 + i + 1);
    PrefixTableSpan(counts, k1 + i + 1, k2);
    var x, y := PrefixTable(counts)[k1 + i], PrefixTable(counts)[k1 + i + 1];
    InnerWindow(over, counts, f, k1, k2, lo, hi, i, x, y);
    GroupExact(over, counts, f, k1 + i);
  }

  /** Helper for `GroupSliceAt`: group i of the cut-out piece is the window
      [x, y) of the whole sequence, where x and y are the whole table's entries. */
  lemma InnerWindow<A, R>(over: seq<A>, counts: seq<nat>, f: seq<A> -> R, k1: nat, k2: nat, lo: nat, hi: nat, i: nat, x: nat, y: nat)
    requires k1 <= k2 <= |counts|
    requires |PrefixTable(counts)| == |counts| + 1
    requires lo == PrefixTable(counts)[k1] <= hi <= |over|
    requires hi - lo == Sum(counts[k1..k2])
    requires i < k2 - k1
    requires x == PrefixTable(counts)[k1 + i] && y == PrefixTable(counts)[k1 + i + 1]
    requires x <= y <= hi
    ensures Group(over[lo..hi], counts[k1..k2], f)[i] == f(over[x..y])
  {
    var o' := over[lo..hi];
    PieceWindow(over, counts, k1, k2, lo, hi, i, x, y);
    GroupExact(o', counts[k1..k2], f, i);
  }

  /** The window of full token i in the table of the cut-out counts, taken in
      the cut-out piece, is the window of full token k1 + i in the whole. */
  lemma PieceWindow<A>(over: seq<A>, counts: seq<nat>, k1: nat, k2: nat, lo: nat, hi: nat, i: nat, x: nat, y: nat)
    requires k1 <= k2 <= |counts|
    requires |PrefixTable(counts)| == |counts| + 1
    requires lo == PrefixTable(counts)[k1] <= hi <= |over|
    requires i < k2 - k1
    requires x == PrefixTable(counts)[k1 + i] && y == PrefixTable(counts)[k1 + i + 1]
    requires x <= y <= hi
    ensures |PrefixTable(counts[k1..k2])| == k2 - k1 + 1
    ensures var t' := PrefixTable(counts[k1..k2]);
            && t'[i] <= t'[i + 1] <= hi - lo
            && over[lo..hi][t'[i]..t'[i + 1]] == over[x..y]
  {
    PrefixTableOfSlice(counts, k1, k2, i);
    PrefixTableOfSlice(counts, k1, k2, i + 1);
    var t' := PrefixTable(counts[k1..k2]);
    SliceOfSlice(over, lo, hi, t'[i], t'[i + 1]);
  }

  /** Grouping two exactly-sized sequences laid end to end gives the groups of
      the first followed by the groups of the second. */
  lemma GroupAppend<A, R>(a: seq<A>, ca: seq<nat>, b: seq<A>, cb: seq<nat>, f: seq<A> -> R)
    requires |a| == Sum(ca)
    requires |b| == Sum(cb)
    ensures Group(a + b, ca + cb, f) == Group(a, ca, f) + Group(b, cb, f)
  {
    var g := Group(a + b, ca + cb, f);
    GroupAppendParts(a, ca, b, cb, f);
    assert g == g[..|ca|] + g[|ca|..];
  }

  /** The two halves of `GroupAppend`: the first |ca| groups are those of
      `a`, the rest those of `b`. */
  lemma GroupAppendParts<A, R>(a: seq<A>, ca: seq<nat>, b: seq<A>, cb: seq<nat>, f: seq<A> -> R)
    requires |a| == Sum(ca)
    requires |b| == Sum(cb)
    ensures Group(a + b, ca + cb, f)[..|ca|] == Group(a, ca, f)
    ensures Group(a + b, ca + cb, f)[|ca|..] == Group(b, cb, f)
  {
    var c := ca + cb;
    var o := a + b;
    SumAppend(ca, cb);
    PrefixTableEntry(c, 0);
    PrefixTableEntry(c, |ca|);
    PrefixTableEntry(c, |c|);
    assert c[..|ca|] == ca;
    assert c[..|c|] == c;
    GroupSlice(o, c, f, 0, |ca|);
    GroupSlice(o, c, f, |ca|, |c|);
    assert o[0..|a|] == a;
    assert o[|a|..|o|] == b;
    assert c[0..|ca|] == ca;
    assert c[|ca|..|c|] == cb;
  }


  /** How many times the broadcasting iterator emits an element whose full
      token has `count` sub-tokens: the cursor advances only after emitting,
      so a zero count still emits once. */
  function Copies(count: nat): nat {
    if count == 0 then 1 else count
  }

  /** The elements of `over`, each repeated as often as its full token has
      sub-tokens. */
  function Spread<A>(over: seq<A>, counts: seq<nat>): seq<A>
    requires |over| <= |counts|
    decreases |over|
  {
    if |over| == 0 then []
    else Spread(over[..|over| - 1], counts) + Repeat(over[|over| - 1], Copies(counts[|over| - 1]))
  }

  /** `_SubOverFullTokenIterator(over, metadata)`, run to exhaustion: it stops
      once every element of `over` has been emitted, and raises when `over`
      has more elements than there are full tokens, after yielding the copies
      of every element that has a full token. */
  function Broadcast<A>(over: seq<A>, counts: seq<nat>): (r: Result<seq<A>, IterError<A>>)
    ensures r.Err? <==> |over| > |counts|
    ensures r.Ok? ==> |over| <= |counts| && r.value == Spread(over, counts)
    ensures r.Err? ==> |counts| < |over| && r.error.emitted == Spread(over[..|counts|], counts)
  {
    if |over| > |counts| then Err(CountsExhausted(Spread(over[..|counts|], counts)))
    else Ok(Spread(over, counts))
  }

  /** The iterator's `__next__` loop: emit `over[fullWord]`, bump the sub-token
      cursor, and move to the next full token once the cursor reaches its count. */
  method BroadcastIter<A>(over: seq<A>, counts: seq<nat>) returns (r: Result<seq<A>, IterError<A>>)
    ensures r == Broadcast(over, counts)
  {
    var out: seq<A> := [];
    var fullWord := 0;
    var index := 0;
    while fullWord < |over|
      invariant fullWord <= |over| && fullWord <= |counts|
      invariant fullWord < |counts| ==> index < Copies(counts[fullWord])
      invariant fullWord == |counts| ==> index == 0
      invariant fullWord < |over| ==> out == Spread(over[..fullWord], counts) + Repeat(over[fullWord], index)
      invariant fullWord == |over| ==> out == Spread(over, counts)
      decreases |over| - fullWord, if fullWord < |counts| then Copies(counts[fullWord]) - index else 0
    {
      var result := over[fullWord];
      index := index + 1;
      if fullWord >= |counts| {
        assert Repeat(result, 0) == [];
        assert out == Spread(over[..|counts|], counts);
        return Err(CountsExhausted(out));
      }
      assert Repeat(result, index) == Repeat(result, index - 1) + [result];
      out := out + [result];
      if index >= counts[fullWord] {
        assert over[..fullWord + 1][..fullWord] == over[..fullWord];
        fullWord := fullWord + 1;
        index := 0;
        if fullWord == |over| {
          assert over[..fullWord] == over;
        }
      }
    }
    return Ok(out);
  }

  /** With positive counts, the broadcast of `over` has as many elements as
      the full tokens of `over` have sub-tokens. */
  lemma {:induction false} SpreadLength<A>(over: seq<A>, counts: seq<nat>)
    requires |over| <= |counts|
    requires forall k :: 0 <= k < |counts| ==> counts[k] > 0
    ensures |Spread(over, counts)| == Sum(counts[..|over|])
    decreases |over|
  {
    var k := |over|;
    if k == 0 {
      assert counts[..0] == [];
    } else {
      SpreadLength(over[..k - 1], counts);
      SumSnoc(counts, k - 1);
    }
  }

  /** With positive counts, element i of `over` fills exactly the window of
      full token i in the broadcast. */
  lemma {:induction false} SpreadWindow<A>(over: seq<A>, counts: seq<nat>, i: nat)
    requires |over| <= |counts|
    requires forall k :: 0 <= k < |counts| ==> counts[k] > 0
    requires i < |over|
    ensures Sum(counts[..i + 1]) == Sum(counts[..i]) + counts[i]
    ensures Sum(counts[..i + 1]) <= |Spread(over, counts)|
    ensures Spread(over, counts)[Sum(counts[..i])..Sum(counts[..i + 1])] == Repeat(over[i], counts[i])
    decreases |over|
  {
    var k := |over|;
    var init := over[..k - 1];
    var first := Spread(init, counts);
    var s := Spread(over, counts);
    SumSnoc(counts, i);
    SpreadLength(init, counts);
    if i == k - 1 {
      assert s[|first|..] == Repeat(over[k - 1], counts[k - 1]);
    } else {
      SpreadWindow(init, counts, i);
      assert init[i] == over[i];
      assert s[Sum(counts[..i])..Sum(counts[..i + 1])] == first[Sum(counts[..i])..Sum(counts[..i + 1])];
    }
  }

  /** Grouping the broadcast of `over` by the same counts hands every full
      token the copies of its own element: grouping undoes broadcasting. */
  lemma GroupAfterBroadcast<A, R>(over: seq<A>, counts: seq<nat>, f: seq<A> -> R)
    requires |over| <= |counts|
    requires forall k :: 0 <= k < |counts| ==> counts[k] > 0
    ensures Broadcast(over, counts).Ok?
    ensures Group(Broadcast(over, counts).value, counts[..|over|], f)
            == seq(|over|, i requires 0 <= i < |over| => f(Repeat(over[i], counts[i])))
  {
    var s := Spread(over, counts);
    var c := counts[..|over|];
    SpreadLength(over, counts);
    forall i | 0 <= i < |over|
      ensures Group(s, c, f)[i] == f(Repeat(over[i], counts[i]))
    {
      SpreadWindow(over, counts, i);
      GroupExact(s, c, f, i);
      PrefixTableEntry(c, i);
      PrefixTableEntry(c, i + 1);
      assert c[..i] == counts[..i];
      assert c[..i + 1] == counts[..i + 1];
    }
  }
}

=== FILE: lists.dfy ===
/** Python list primitives the token engine is built on: step-1 slicing with
    negative and out-of-range bounds, sums and running sums, reverse lookup,
    string joining and suffix tests. */
module Lists {
  import opened Wrappers

  /** Python's resolution of one slice bound against a list of length `len`:
      a negative bound counts from the end, and every bound is clamped to [0, len]. */
  function ResolveBound(b: int, len: nat): (r: nat)
    ensures r <= len
    ensures 0 <= b <= len ==> r == b
  {
    if b < 0 then (if b + len < 0 then 0 else b + len)
    else if b > len then len
    else b
  }

  /** The resolved start of a slice; an omitted start means 0. */
  function ResolveStart(b: Option<int>, len: nat): nat {
    if b.None? then 0 else ResolveBound(b.value, len)
  }

  /** The resolved stop of a slice; an omitted stop means the list's length. */
  function ResolveStop(b: Option<int>, len: nat): nat {
    if b.None? then len else ResolveBound(b.value, len)
  }

  /** `xs[start:stop]` in Python (step 1): never fails, empty when the
      resolved start is not below the resolved stop. */
  function PySlice<T>(xs: seq<T>, start: Option<int>, stop: Option<int>): seq<T> {
    var a := ResolveStart(start, |xs|);
    var b := ResolveStop(stop, |xs|);
    if a < b then xs[a..b] else []
  }

  /** A slice between two in-range bounds holds the elements between them,
      or none when the bounds are inverted. */
  lemma PySliceLength<T>(xs: seq<T>, a: nat, b: nat)
    requires a <= |xs| && b <= |xs|
    ensures |PySlice(xs, Some(a), Some(b))| == if a < b then b - a else 0
  {
  }

  /** Slicing with the resolved bounds is slicing with the original bounds. */
  lemma PySliceResolved<T>(xs: seq<T>, a: Option<int>, b: Option<int>)
    ensures PySlice(xs, a, b) == PySlice(xs, Some(ResolveStart(a, |xs|)), Some(ResolveStop(b, |xs|)))
  {
  }

  /** A window of a window is a window of the original sequence. */
  lemma SliceOfSlice<T>(xs: seq<T>, a: nat, b: nat, c: nat, d: nat)
    requires a <= b <= |xs|
    requires c <= d <= b - a
    ensures xs[a..b][c..d] == xs[a + c..a + d]
  {
    var l := xs[a..b][c..d];
    var r := xs[a + c..a + d];
    assert |l| == |r|;
    forall k | 0 <= k < |l| ensures l[k] == r[k] {
      assert l[k] == xs[a..b][c + k];
    }
  }

  /** `sum(xs)`. */
  function Sum(xs: seq<nat>): nat {
    if |xs| == 0 then 0 else xs[0] + Sum(xs[1..])
  }

  lemma {:induction false} SumAppend(a: seq<nat>, b: seq<nat>)
    ensures Sum(a + b) == Sum(a) + Sum(b)
    decreases |a|
  {
    if |a| == 0 {
      assert a + b == b;
    } else {
      assert (a + b)[1..] == a[1..] + b;
      SumAppend(a[1..], b);
    }
  }

  /** Extending a prefix by one element adds that element to its sum. */
  lemma SumSnoc(xs: seq<nat>, i: nat)
    requires i < |xs|
    ensures Sum(xs[..i + 1]) == Sum(xs[..i]) + xs[i]
  {
    assert xs[..i + 1] == xs[..i] + [xs[i]];
    SumAppend(xs[..i], [xs[i]]);
    assert Sum([xs[i]]) == xs[i] + Sum([]);
  }

  /** The running sum `cum_sum(xs)`: entry i is the sum of the first i + 1 elements. */
  function CumSum(xs: seq<nat>): seq<nat> {
    seq(|xs|, i requires 0 <= i < |xs| => Sum(xs[..i + 1]))
  }

  /** `[0] + cum_sum(counts)`: entry i is the offset of full token i among the
      sub-tokens, and the last entry is the total. */
  function PrefixTable(counts: seq<nat>): seq<nat> {
    [0] + CumSum(counts)
  }

  /** Entry i of the prefix table is the number of sub-tokens before full token i. */
  lemma PrefixTableEntry(counts: seq<nat>, i: nat)
    requires i <= |counts|
    ensures |PrefixTable(counts)| == |counts| + 1
    ensures PrefixTable(counts)[i] == Sum(counts[..i])
  {
    if i == 0 {
      assert counts[..0] == [];
    }
  }

  /** The total count is found in the prefix table at its last position. */
  lemma PrefixTableLast(counts: seq<nat>)
    ensures |PrefixTable(counts)| == |counts| + 1
    ensures LastIndexOf(PrefixTable(counts), Sum(counts)) == Some(|counts|)
  {
    PrefixTableEntry(counts, |counts|);
    assert counts[..|counts|] == counts;
  }

  /** Dropping the first full token shifts the prefix table by its count. */
  lemma PrefixTableShift(counts: seq<nat>, i: nat)
    requires 1 <= i <= |counts|
    ensures |PrefixTable(counts[1..])| == |counts|
    ensures PrefixTable(counts)[i] == counts[0] + PrefixTable(counts[1..])[i - 1]
  {
    PrefixTableEntry(counts, i);
    PrefixTableEntry(counts[1..], i - 1);
    assert counts[..i][1..] == counts[1..][..i - 1];
  }

  /** The distance between entries i and j of the prefix table is the number of
      sub-tokens of the full tokens i..j. */
  lemma PrefixTableSpan(counts: seq<nat>, i: nat, j: nat)
    requires i <= j <= |counts|
    ensures PrefixTable(counts)[j] == PrefixTable(counts)[i] + Sum(counts[i..j])
  {
    PrefixTableEntry(counts, i);
    PrefixTableEntry(counts, j);
    assert counts[..j] == counts[..i] + counts[i..j];
    SumAppend(counts[..i], counts[i..j]);
  }

  /** The prefix table of the counts of full tokens k1..k2 is the original
      table from entry k1 on, shifted down by entry k1. */
  lemma PrefixTableOfSlice(counts: seq<nat>, k1: nat, k2: nat, i: nat)
    requires k1 <= k2 <= |counts|
    requires i <= k2 - k1
    ensures |PrefixTable(counts)| == |counts| + 1
    ensures |PrefixTable(counts[k1..k2])| == k2 - k1 + 1
    ensures PrefixTable(counts)[k1] + PrefixTable(counts[k1..k2])[i] == PrefixTable(counts)[k1 + i]
  {
    PrefixTableSpan(counts, k1, k1 + i);
    PrefixTableEntry(counts[k1..k2], i);
    assert counts[k1..k2][..i] == counts[k1..k1 + i];
  }

  /** The prefix table starts at 0, ends at the total, and the distance between
      two of its entries is the number of sub-tokens of the full tokens between them. */
  lemma PrefixTableSpans(counts: seq<nat>)
    ensures |PrefixTable(counts)| == |counts| + 1
    ensures PrefixTable(counts)[0] == 0
    ensures PrefixTable(counts)[|counts|] == Sum(counts)
    ensures forall i, j :: 0 <= i <= j <= |counts| ==>
              PrefixTable(counts)[j] == PrefixTable(counts)[i] + Sum(counts[i..j])
  {
    PrefixTableEntry(counts, |counts|);
    assert counts[..|counts|] == counts;
    forall i, j | 0 <= i <= j <= |counts|
      ensures PrefixTable(counts)[j] == PrefixTable(counts)[i] + Sum(counts[i..j])
    {
      PrefixTableSpan(counts, i, j);
    }
  }

  /** Entries of the prefix table never decrease, and strictly increase when
      every count is positive. */
  lemma PrefixTableMonotone(counts: seq<nat>)
    ensures |PrefixTable(counts)| == |counts| + 1
    ensures forall i, j :: 0 <= i <= j <= |counts| ==> PrefixTable(counts)[i] <= PrefixTable(counts)[j]
    ensures (forall k :: 0 <= k < |counts| ==> counts[k] > 0) ==>
              forall i, j :: 0 <= i < j <= |counts| ==> PrefixTable(counts)[i] < PrefixTable(counts)[j]
  {
    forall i, j | 0 <= i <= j <= |counts|
      ensures PrefixTable(counts)[i] <= PrefixTable(counts)[j]
    {
      PrefixTableSpan(counts, i, j);
    }
    if forall k :: 0 <= k < |counts| ==> counts[k] > 0 {
      forall i, j | 0 <= i < j <= |counts|
        ensures PrefixTable(counts)[i] < PrefixTable(counts)[j]
      {
        PrefixTableSpan(counts, i, j);
        assert counts[i..j][0] == counts[i];
      }
    }
  }

  /** The dictionary `{n: i for i, n in enumerate(table)}` looked up at `x`:
      since later keys overwrite earlier ones, the LAST index holding `x`. */
  function LastIndexOf(table: seq<nat>, x: int): (r: Option<nat>)
    ensures r.None? <==> (forall j :: 0 <= j < |table| ==> table[j] != x)
    ensures r.Some? ==> r.value < |table| && table[r.value] == x
    ensures r.Some? ==> forall j :: r.value < j < |table| ==> table[j] != x
    decreases |table|
  {
    if |table| == 0 then None
    else if table[|table| - 1] == x then Some(|table| - 1)
    else LastIndexOf(table[..|table| - 1], x)
  }

  /** `"".join(words)`. */
  function Join(words: seq<string>): string {
    if |words| == 0 then "" else words[0] + Join(words[1..])
  }

  /** `s.endswith(suffix)`. */
  predicate EndsWith(s: string, suffix: string) {
    |suffix| <= |s| && s[|s| - |suffix|..] == suffix
  }

  /** `[x] * n`. */
  function Repeat<T>(x: T, n: nat): seq<T> {
    seq(n, _ => x)
  }
}

=== FILE: sequence.dfy ===
/** The shared representation of a prepped token sequence (the base class
    `PreppedTokenSequence` of codeprep/tokens.py): sub-tokens plus metadata,
    the construction checks, the index tables built at construction, index
    normalisation, concatenation, and conversion between the two views. */
module Sequence {
  import opened Wrappers
  import opened Lists
  import opened Iterators

  /** The type tag of a full token; opaque to the engine. */
  type TokenType = string

  /** The end-of-word placeholder (`placeholders['compound_word_end']`). */
  const EndOfWord: string := "</t>"

  /** `PreppedTokenMetadata`: the number of sub-tokens of each full token and
      the type of each full token. */
  datatype Metadata = Metadata(counts: seq<nat>, types: seq<TokenType>)

  /** Which class a synchronized sequence is: the sub-token view
      (`PreppedSubTokenSequence`) or the full-token view
      (`PreppedFullTokenSequence`, with its `return_token_type` flag). */
  datatype View = SubTokens | FullTokens(returnTokenType: bool)

  /** A synchronized sequence. `table` is `_full_to_sub_token_indices` as
      built when the value was constructed; `_sub_to_full_token_indices` is
      its inverse and is derived from it on lookup (`SubToFull`). */
  datatype TokenSequence = TokenSequence(
    view: View,
    tokens: seq<string>,
    meta: Metadata,
    wordEndAdded: bool,
    table: seq<nat>)

  /** Any value an operation can receive or produce: a synchronized sequence,
      a `SurrogatePreppedTokenSequence` that only carries tokens, or a value
      of some other Python type. */
  datatype Value = Synced(sequence: TokenSequence) | Surrogate(tokens: seq<string>) | Foreign

  /** The exceptions the engine raises. */
  datatype Error =
    | OutOfSync(subwords: nat, expected: nat)  // ValueError at construction
    | MissingEndMarker(token: string)          // AssertionError at construction
    | MiddleOfFullToken(index: nat)            // KeyError of the sub-to-full lookup
    | NoSuchSubIndex(index: nat)               // KeyError of `__len__` on the full view
    | StepGiven                                // TypeError from calling `NotImplemented`
    | BracketSchemeRequested                   // TypeError from calling `NotImplemented`
    | WrongOperand                             // TypeError of `add` and `__setitem__`

  /** `is_terminal_subtoken(subtoken)`: ends with the end-of-word marker. */
  predicate IsTerminal(subtoken: string) {
    EndsWith(subtoken, EndOfWord)
  }

  /** `is_terminal_subtoken(subtoken, use_token_end_chars)`: the scheme with
      separate start and end markers is refused. */
  function IsTerminalSubtoken(subtoken: string, useTokenEndChars: bool): (r: Result<bool, Error>)
    ensures !useTokenEndChars <==> r == Err(BracketSchemeRequested)
    ensures r.Ok? ==> (r.value <==> exists w :: subtoken == w + EndOfWord)
  {
    TerminalIsMarkerSuffix(subtoken);
    if !useTokenEndChars then Err(BracketSchemeRequested) else Ok(IsTerminal(subtoken))
  }

  /** A sub-token is terminal exactly when it is some word followed by the
      end-of-word marker. */
  lemma TerminalIsMarkerSuffix(subtoken: string)
    ensures IsTerminal(subtoken) <==> exists w :: subtoken == w + EndOfWord
  {
    if IsTerminal(subtoken) {
      var w := subtoken[..|subtoken| - |EndOfWord|];
      assert subtoken == w + EndOfWord;
    }
    if w :| subtoken == w + EndOfWord {
      assert subtoken[|subtoken| - |EndOfWord|..] == EndOfWord;
    }
  }

  /** The full tokens as the construction check sees them: each full token's
      sub-tokens joined into one string. */
  function FullWords(tokens: seq<string>, counts: seq<nat>): seq<string> {
    Group(tokens, counts, Join)
  }

  /** Every full token ends with the end-of-word marker. */
  predicate Terminated(tokens: seq<string>, counts: seq<nat>) {
    forall i :: 0 <= i < |counts| ==> IsTerminal(FullWords(tokens, counts)[i])
  }

  /** The first word lacking the end-of-word marker, if any. */
  function FirstUnterminated(words: seq<string>): (r: Option<string>)
    ensures r.None? <==> forall i :: 0 <= i < |words| ==> IsTerminal(words[i])
    ensures r.Some? ==> exists i :: 0 <= i < |words| && words[i] == r.value && !IsTerminal(words[i])
                                    && forall j :: 0 <= j < i ==> IsTerminal(words[j])
  {
    if |words| == 0 then None
    else if !IsTerminal(words[0]) then Some(words[0])
    else
      var r := FirstUnterminated(words[1..]);
      if r.Some? then FirstUnterminatedShift(words, r.value); r else r
  }

  /** Behind a terminated first word, the first unterminated word of the rest
      is the first unterminated word of the whole list. */
  lemma FirstUnterminatedShift(words: seq<string>, x: string)
    requires |words| > 0 && IsTerminal(words[0])
    requires exists i :: 0 <= i < |words[1..]| && words[1..][i] == x && !IsTerminal(words[1..][i])
                         && forall j :: 0 <= j < i ==> IsTerminal(words[1..][j])
    ensures exists i :: 0 <= i < |words| && words[i] == x && !IsTerminal(words[i])
                        && forall j :: 0 <= j < i ==> IsTerminal(words[j])
  {
    var i :| 0 <= i < |words[1..]| && words[1..][i] == x && !IsTerminal(words[1..][i])
             && forall j :: 0 <= j < i ==> IsTerminal(words[1..][j]);
    forall j | 0 <= j < i + 1 ensures IsTerminal(words[j]) {
      if j > 0 {
        assert words[j] == words[1..][j - 1];
      }
    }
    assert words[i + 1] == x;
  }

  /** A sequence as `__post_init__` leaves it: tokens and counts agree, the
      index table is the prefix table of the counts, and every full token
      ends with the marker when the flag says so. */
  predicate WellFormed(s: TokenSequence) {
    && |s.tokens| == Sum(s.meta.counts)
    && s.table == PrefixTable(s.meta.counts)
    && (s.wordEndAdded ==> Terminated(s.tokens, s.meta.counts))
  }

  /** The dataclass constructor followed by `__post_init__`. */
  function Construct(view: View, tokens: seq<string>, meta: Metadata, wordEndAdded: bool): (r: Result<TokenSequence, Error>)
    ensures r.Ok? <==> |tokens| == Sum(meta.counts) && (wordEndAdded ==> Terminated(tokens, meta.counts))
    ensures |tokens| != Sum(meta.counts) ==> r == Err(OutOfSync(|tokens|, Sum(meta.counts)))
    ensures r.Err? && |tokens| == Sum(meta.counts) ==>
              && r.error.MissingEndMarker?
              && !IsTerminal(r.error.token)
              && exists i :: 0 <= i < |meta.counts| && FullWords(tokens, meta.counts)[i] == r.error.token
                               && forall j :: 0 <= j < i ==> IsTerminal(FullWords(tokens, meta.counts)[j])
    ensures r.Ok? ==> && WellFormed(r.value)
                      && r.value.view == view && r.value.tokens == tokens
                      && r.value.meta == meta && r.value.wordEndAdded == wordEndAdded
  {
    if |tokens| != Sum(meta.counts) then Err(OutOfSync(|tokens|, Sum(meta.counts)))
    else
      var missing := if wordEndAdded then FirstUnterminated(FullWords(tokens, meta.counts)) else None;
      if missing.Some? then Err(MissingEndMarker(missing.value))
      else Ok(TokenSequence(view, tokens, meta, wordEndAdded, PrefixTable(meta.counts)))
  }

  /** `_sub_to_full_token_indices[offset]`: the full token starting at
      sub-token `offset`, absent when `offset` lies inside a full token. */
  function SubToFull(s: TokenSequence, offset: int): Option<nat> {
    LastIndexOf(s.table, offset)
  }

  /** `len(self)`: sub-tokens for the sub view; for the full view the table
      lookup `_sub_to_full_token_indices[len(self.tokens)]`. */
  function Length(s: TokenSequence): (r: Result<nat, Error>)
    ensures s.view.SubTokens? ==> r == Ok(|s.tokens|)
    ensures s.view.FullTokens? ==> (r.Ok? <==> |s.tokens| in s.table)
    ensures s.view.FullTokens? && r.Ok? ==> r.value < |s.table| && s.table[r.value] == |s.tokens|
    ensures s.view.FullTokens? && r.Ok? ==> forall j :: r.value < j < |s.table| ==> s.table[j] != |s.tokens|
    ensures r.Err? ==> r == Err(NoSuchSubIndex(|s.tokens|))
  {
    match s.view
    case SubTokens => Ok(|s.tokens|)
    case FullTokens(_) =>
      match SubToFull(s, |s.tokens|)
      case None => Err(NoSuchSubIndex(|s.tokens|))
      case Some(k) => Ok(k)
  }

  /** A freshly built sequence has the length of its own granularity: its
      sub-tokens for the sub view, its full tokens for the full view. */
  lemma FreshLength(s: TokenSequence)
    requires WellFormed(s)
    ensures Length(s) == Ok(if s.view.SubTokens? then |s.tokens| else |s.meta.counts|)
  {
    PrefixTableEntry(s.meta.counts, |s.meta.counts|);
    assert s.meta.counts[..|s.meta.counts|] == s.meta.counts;
  }

  /** Where `_convert_index` applies the conversion function: `At(k)` gives
      `conv(k)` and `BeforeStart(k)` gives `-conv(k) - 1`. */
  datatype Point = At(k: nat) | BeforeStart(k: nat)

  /** `_convert_index` without the final conversion, for a view of length `n`. */
  function Normalize(index: int, n: nat): (p: Point)
    ensures p.k <= n
    ensures p.BeforeStart? <==> index + n < 0
    ensures p.BeforeStart? ==> p.k == n
    ensures p.At? ==> p.k == ResolveBound(index, n)
  {
    if index + n < 0 then BeforeStart(n)
    else if index < 0 then At(n + index)
    else if index > n then At(n)
    else At(index)
  }

  function Apply(p: Point, converted: int): int {
    if p.At? then converted else -converted - 1
  }

  /** `_full_to_sub_index`, used by the full view: the sub-token offset of a
      full-token index. */
  function FullToSubIndex(s: TokenSequence, index: Option<int>): (r: Result<Option<int>, Error>)
    requires s.view.FullTokens?
    ensures index.None? ==> r == Ok(None)
    ensures index.Some? ==> (r.Ok? <==> Length(s).Ok?)
    ensures r.Ok? ==> (r.value.None? <==> index.None?)
    ensures index.Some? && r.Ok? ==>
              var n := Length(s).value;
              n < |s.table| &&
              r.value.value == if index.value + n < 0 then -(s.table[n] as int) - 1
                               else s.table[ResolveBound(index.value, n)] as int
  {
    if index.None? then Ok(None)
    else
      var n :- Length(s);
      var p := Normalize(index.value, n);
      Ok(Some(Apply(p, s.table[p.k])))
  }

  /** `_sub_to_full_index`, used by the sub view: the full-token index of a
      sub-token offset, failing when the offset lies inside a full token. */
  function SubToFullIndex(s: TokenSequence, index: Option<int>): (r: Result<Option<int>, Error>)
    requires s.view.SubTokens?
    ensures index.None? ==> r == Ok(None)
    ensures index.Some? ==> (r.Ok? <==> if index.value + |s.tokens| < 0 then |s.tokens| in s.table
                                         else ResolveBound(index.value, |s.tokens|) in s.table)
    ensures r.Err? ==> r.error.MiddleOfFullToken?
    ensures r.Ok? ==> (r.value.None? <==> index.None?)
    ensures index.Some? && r.Ok? && index.value + |s.tokens| >= 0 ==>
              var k := r.value.value;
              && 0 <= k < |s.table|
              && s.table[k] == ResolveBound(index.value, |s.tokens|)
              && forall j :: k < j < |s.table| ==> s.table[j] != s.table[k]
    ensures index.Some? && r.Ok? && index.value + |s.tokens| < 0 ==>
              var k := -r.value.value - 1;
              && 0 <= k < |s.table|
              && s.table[k] == |s.tokens|
              && forall j :: k < j < |s.table| ==> s.table[j] != |s.tokens|
  {
    if index.None? then Ok(None)
    else
      var p := Normalize(index.value, |s.tokens|);
      match SubToFull(s, p.k)
      case None => Err(MiddleOfFullToken(p.k))
      case Some(full) => Ok(Some(Apply(p, full)))
  }

  /** `full_tokens_view(formatter, return_token_type)`: the same data as a full
      view, validated again. */
  function FullTokensView(s: TokenSequence, returnTokenType: bool): (r: Result<TokenSequence, Error>)
    ensures r.Ok? <==> |s.tokens| == Sum(s.meta.counts) && (s.wordEndAdded ==> Terminated(s.tokens, s.meta.counts))
    ensures r.Ok? ==> && WellFormed(r.value)
                      && r.value.view == FullTokens(returnTokenType)
                      && r.value.tokens == s.tokens && r.value.meta == s.meta
                      && r.value.wordEndAdded == s.wordEndAdded
                      && r.value.table == PrefixTable(s.meta.counts)
  {
    Construct(FullTokens(returnTokenType), s.tokens, s.meta, s.wordEndAdded)
  }

  /** `sub_token_view()`: the same data as a sub view, validated again. */
  function SubTokenView(s: TokenSequence): (r: Result<TokenSequence, Error>)
    ensures r.Ok? <==> |s.tokens| == Sum(s.meta.counts) && (s.wordEndAdded ==> Terminated(s.tokens, s.meta.counts))
    ensures r.Ok? ==> && WellFormed(r.value)
                      && r.value.view == SubTokens
                      && r.value.tokens == s.tokens && r.value.meta == s.meta
                      && r.value.wordEndAdded == s.wordEndAdded
                      && r.value.table == PrefixTable(s.meta.counts)
  {
    Construct(SubTokens, s.tokens, s.meta, s.wordEndAdded)
  }

  /** Switching to the full view and back reproduces the tokens, the metadata
      and the flag exactly, and both switches succeed. */
  lemma ViewRoundTrip(s: TokenSequence, returnTokenType: bool)
    requires WellFormed(s)
    ensures FullTokensView(s, returnTokenType).Ok?
    ensures SubTokenView(FullTokensView(s, returnTokenType).value).Ok?
    ensures var back := SubTokenView(FullTokensView(s, returnTokenType).value).value;
            back.tokens == s.tokens && back.meta == s.meta && back.wordEndAdded == s.wordEndAdded
            && back.view == SubTokens && back.table == s.table
  {
  }

  /** `PreppedTokenSequence.add` with another sequence: the tokens are extended
      and both metadata lists appended, in the receiver's class and with its
      flag. The index tables are left as they were. */
  function Append(s: TokenSequence, other: TokenSequence): TokenSequence {
    s.(tokens := s.tokens + other.tokens,
       meta := Metadata(s.meta.counts + other.meta.counts, s.meta.types + other.meta.types))
  }

  /** `PreppedTokenSequence.add(other)`. */
  function AddSequence(s: TokenSequence, other: Value): (r: Result<Value, Error>)
    ensures other.Foreign? <==> r == Err(WrongOperand)
    ensures other.Synced? ==>
              && r.Ok? && r.value.Synced?
              && r.value.sequence.tokens == s.tokens + other.sequence.tokens
              && r.value.sequence.meta.counts == s.meta.counts + other.sequence.meta.counts
              && r.value.sequence.meta.types == s.meta.types + other.sequence.meta.types
              && r.value.sequence.view == s.view && r.value.sequence.wordEndAdded == s.wordEndAdded
              && r.value.sequence.table == s.table
    ensures other.Surrogate? ==> r == Ok(Surrogate(s.tokens + other.tokens))
  {
    match other
    case Synced(o) => Ok(Synced(Append(s, o)))
    case Surrogate(t) => Ok(Surrogate(s.tokens + t))
    case Foreign => Err(WrongOperand)
  }

  /** `SurrogatePreppedTokenSequence.add(other)`: only another surrogate is
      accepted. */
  function AddSurrogate(tokens: seq<string>, other: Value): (r: Result<Value, Error>)
    ensures r.Ok? <==> other.Surrogate?
    ensures r.Ok? ==> r.value == Surrogate(tokens + other.tokens)
    ensures r.Err? ==> r.error == WrongOperand
  {
    if other.Surrogate? then Ok(Surrogate(tokens + other.tokens)) else Err(WrongOperand)
  }

  /** `left + right` for the engine's own values. */
  function Add(left: Value, right: Value): (r: Result<Value, Error>)
    requires !left.Foreign?
    ensures r.Ok? <==> (left.Synced? && !right.Foreign?) || (left.Surrogate? && right.Surrogate?)
    ensures r.Ok? ==> (r.value.Synced? <==> left.Synced? && right.Synced?)
    ensures r.Ok? ==> Raw(r.value) == Raw(left) + Raw(right)
  {
    match left
    case Synced(s) => AddSequence(s, right)
    case Surrogate(t) => AddSurrogate(t, right)
  }

  /** The sub-tokens a value carries. */
  function Raw(v: Value): seq<string> {
    match v
    case Synced(s) => s.tokens
    case Surrogate(t) => t
    case Foreign => []
  }

  /** Appending two fresh sequences keeps tokens and counts in step and keeps
      every full token terminated: rebuilding the result succeeds. */
  lemma AppendStaysInSync(s: TokenSequence, other: TokenSequence)
    requires WellFormed(s) && WellFormed(other)
    requires s.wordEndAdded ==> other.wordEndAdded
    ensures |Append(s, other).tokens| == Sum(Append(s, other).meta.counts)
    ensures s.wordEndAdded ==> Terminated(Append(s, other).tokens, Append(s, other).meta.counts)
    ensures Construct(s.view, Append(s, other).tokens, Append(s, other).meta, s.wordEndAdded).Ok?
  {
    SumAppend(s.meta.counts, other.meta.counts);
    GroupAppend(s.tokens, s.meta.counts, other.tokens, other.meta.counts, Join);
    if s.wordEndAdded {
      var words := FullWords(s.tokens + other.tokens, s.meta.counts + other.meta.counts);
      forall i | 0 <= i < |words| ensures IsTerminal(words[i]) {
        if i < |s.meta.counts| {
          assert words[i] == FullWords(s.tokens, s.meta.counts)[i];
        } else {
          assert words[i] == FullWords(other.tokens, other.meta.counts)[i - |s.meta.counts|];
        }
      }
    }
  }

  /** The bounds of a `__getitem__` key: an integer `i` stands for the slice
      `i:i+1`, and a slice with a step is refused. */
  datatype Key = Index(i: int) | Slice(start: Option<int>, stop: Option<int>, step: Option<int>)

  function Bounds(key: Key): (r: Result<(Option<int>, Option<int>), Error>)
    ensures r.Err? <==> key.Slice? && key.step.Some?
    ensures r.Err? ==> r.error == StepGiven
    ensures key.Index? ==> r == Ok((Some(key.i), Some(key.i + 1)))
    ensures key.Slice? && r.Ok? ==> r.value == (key.start, key.stop)
  {
    match key
    case Index(i) => Ok((Some(i), Some(i + 1)))
    case Slice(start, stop, step) => if step.Some? then Err(StepGiven) else Ok((start, stop))
  }

  /** Cutting a fresh sequence at the boundaries of full tokens ka and kb (with
      Python slicing, so an inverted pair gives nothing) yields data that passes
      the construction checks, and whose full tokens are full tokens ka..kb. */
  lemma SliceBetween<R>(s: TokenSequence, view: View, ka: nat, kb: nat, types: seq<TokenType>, f: seq<string> -> R)
    requires WellFormed(s)
    requires ka <= |s.meta.counts| && kb <= |s.meta.counts|
    ensures |s.table| == |s.meta.counts| + 1
    ensures var toks := PySlice(s.tokens, Some(s.table[ka]), Some(s.table[kb]));
            var counts := PySlice(s.meta.counts, Some(ka), Some(kb));
            && Construct(view, toks, Metadata(counts, types), s.wordEndAdded).Ok?
            && Group(toks, counts, f) == if ka < kb then Group(s.tokens, s.meta.counts, f)[ka..kb] else []
  {
    SliceWindow(s, ka, kb);
    var c := s.meta.counts;
    var t := s.table;
    var toks := PySlice(s.tokens, Some(t[ka]), Some(t[kb]));
    var counts := PySlice(c, Some(ka), Some(kb));
    if ka < kb {
      GroupSlice(s.tokens, c, f, ka, kb);
      if s.wordEndAdded {
        SliceTerminated(s, ka, kb);
      }
    }
  }

  /** The tokens and counts between the boundaries of full tokens ka and kb
      agree in size; both are empty when the pair is inverted. */
  lemma SliceWindow(s: TokenSequence, ka: nat, kb: nat)
    requires WellFormed(s)
    requires ka <= |s.meta.counts| && kb <= |s.meta.counts|
    ensures |s.table| == |s.meta.counts| + 1
    ensures ka < kb ==> s.table[ka] <= s.table[kb] <= |s.tokens|
    ensures var toks := PySlice(s.tokens, Some(s.table[ka]), Some(s.table[kb]));
            var counts := PySlice(s.meta.counts, Some(ka), Some(kb));
            && |toks| == Sum(counts)
            && (ka < kb ==> toks == s.tokens[s.table[ka]..s.table[kb]] && counts == s.meta.counts[ka..kb])
            && (kb <= ka ==> toks == [] && counts == [])
  {
    var c := s.meta.counts;
    PrefixTableEntry(c, |c|);
    assert c[..|c|] == c;
    if ka < kb {
      PrefixTableSpan(c, ka, kb);
      PrefixTableSpan(c, kb, |c|);
    } else {
      PrefixTableSpan(c, kb, ka);
    }
  }

  /** The full tokens between two boundaries of a terminated sequence are
      terminated. */
  lemma SliceTerminated(s: TokenSequence, ka: nat, kb: nat)
    requires WellFormed(s) && s.wordEndAdded
    requires ka < kb <= |s.meta.counts|
    ensures |s.table| == |s.meta.counts| + 1
    ensures s.table[ka] <= s.table[kb] <= |s.tokens|
    ensures Terminated(s.tokens[s.table[ka]..s.table[kb]], s.meta.counts[ka..kb])
  {
    SliceWindow(s, ka, kb);
    var c := s.meta.counts;
    var toks := s.tokens[s.table[ka]..s.table[kb]];
    GroupSlice(s.tokens, c, Join, ka, kb);
    forall i | 0 <= i < kb - ka ensures IsTerminal(FullWords(toks, c[ka..kb])[i]) {
      assert FullWords(toks, c[ka..kb])[i] == FullWords(s.tokens, c)[ka + i];
    }
  }

  /** Appending is associative. */
  lemma AppendAssociative(a: TokenSequence, b: TokenSequence, c: TokenSequence)
    ensures Append(Append(a, b), c) == Append(a, Append(b, c))
  {
    assert (a.tokens + b.tokens) + c.tokens == a.tokens + (b.tokens + c.tokens);
    assert (a.meta.counts + b.meta.counts) + c.meta.counts == a.meta.counts + (b.meta.counts + c.meta.counts);
    assert (a.meta.types + b.meta.types) + c.meta.types == a.meta.types + (b.meta.types + c.meta.types);
  }

  /** After `Append`, a full view whose added part has sub-tokens no longer
      knows its own length: `len` raises, because the tables still describe
      the receiver alone. */
  lemma AppendLeavesStaleTable(s: TokenSequence, other: TokenSequence)
    requires WellFormed(s) && s.view.FullTokens?
    requires |other.tokens| > 0
    ensures Length(Append(s, other)).Err?
  {
    PrefixTableEntry(s.meta.counts, |s.meta.counts|);
    assert s.meta.counts[..|s.meta.counts|] == s.meta.counts;
    PrefixTableMonotone(s.meta.counts);
    var n := |Append(s, other).tokens|;
    forall j | 0 <= j < |s.table| ensures s.table[j] != n {
      assert s.table[j] <= s.table[|s.meta.counts|];
    }
  }

  /** `add` as evidently intended: the appended sequence gets index tables
      that describe it. Any two sequences can be appended; the length is right
      whenever both operands are in sync, and the result passes the
      construction checks whenever both operands do and the receiver's flag
      implies the operand's. */
  function AppendRefreshed(s: TokenSequence, other: TokenSequence): (r: TokenSequence)
    ensures r.tokens == s.tokens + other.tokens
    ensures r.meta.counts == s.meta.counts + other.meta.counts
    ensures r.meta.types == s.meta.types + other.meta.types
    ensures r.view == s.view && r.wordEndAdded == s.wordEndAdded
    ensures r.table == PrefixTable(r.meta.counts)
    ensures |s.tokens| == Sum(s.meta.counts) && |other.tokens| == Sum(other.meta.counts) ==>
              Length(r) == Ok(if s.view.SubTokens? then |s.tokens| + |other.tokens|
                              else |s.meta.counts| + |other.meta.counts|)
    ensures WellFormed(s) && WellFormed(other) && (s.wordEndAdded ==> other.wordEndAdded) ==>
              WellFormed(r)
  {
    var c := s.meta.counts + other.meta.counts;
    var r := Append(s, other).(table := PrefixTable(c));
    SumAppend(s.meta.counts, other.meta.counts);
    PrefixTableLast(c);
    if WellFormed(s) && WellFormed(other) && (s.wordEndAdded ==> other.wordEndAdded) then
      AppendStaysInSync(s, other);
      r
    else
      r
  }

  /** Whenever `(a + b) + c` succeeds, so does `a + (b + c)`, and both carry
      the same sub-tokens: concatenation never drops or reorders tokens,
      whichever operands degrade to surrogates. */
  lemma AddAssociativeOnTokens(a: Value, b: Value, c: Value)
    requires !a.Foreign? && !b.Foreign?
    requires Add(a, b).Ok? && Add(Add(a, b).value, c).Ok?
    ensures Add(b, c).Ok? && Add(a, Add(b, c).value).Ok?
    ensures Raw(Add(Add(a, b).value, c).value) == Raw(Add(a, Add(b, c).value).value)
    ensures Raw(Add(Add(a, b).value, c).value) == Raw(a) + Raw(b) + Raw(c)
  {
    assert (Raw(a) + Raw(b)) + Raw(c) == Raw(a) + (Raw(b) + Raw(c));
  }

  /** Concatenation is not symmetric in the kinds of its operands: a
      synchronized sequence accepts a surrogate on its right, but a surrogate
      refuses a synchronized sequence, so `t + (s + t)` succeeds where
      `(t + s) + t` raises. */
  lemma SurrogateRefusesSequence(tokens: seq<string>, s: TokenSequence)
    ensures Add(Synced(s), Surrogate(tokens)) == Ok(Surrogate(s.tokens + tokens))
    ensures Add(Surrogate(tokens), Synced(s)) == Err(WrongOperand)
    ensures Add(Surrogate(tokens), Add(Synced(s), Surrogate(tokens)).value) == Ok(Surrogate(tokens + (s.tokens + tokens)))
  {
  }
}

=== FILE: subview.dfy ===
/** `PreppedSubTokenSequence`: the sequence indexed and iterated one
    sub-token at a time. */
module SubView {
  import opened Wrappers
  import opened Lists
  import opened Iterators
  import opened Sequence

  /** `__getitem__`: both bounds are looked up as full-token boundaries; if
      either lies inside a full token the result degrades to a surrogate
      holding just the sliced tokens, otherwise it is a new sub view whose
      metadata is cut at the corresponding full-token indices. */
  function GetItem(s: TokenSequence, key: Key): (r: Result<Value, Error>)
    requires s.view.SubTokens?
    ensures key.Slice? && key.step.Some? ==> r == Err(StepGiven)
    ensures r.Ok? ==> !r.value.Foreign?
    ensures r.Ok? ==> Raw(r.value) == PySlice(s.tokens, Bounds(key).value.0, Bounds(key).value.1)
    ensures r.Ok? && r.value.Synced? ==>
              && WellFormed(r.value.sequence)
              && r.value.sequence.view == SubTokens
              && r.value.sequence.wordEndAdded == s.wordEndAdded
  {
    var b :- Bounds(key);
    var tokens := PySlice(s.tokens, b.0, b.1);
    var start := SubToFullIndex(s, b.0);
    var stop := SubToFullIndex(s, b.1);
    if start.Err? || stop.Err? then Ok(Surrogate(tokens))
    else
      var r :- Construct(SubTokens, tokens,
                         Metadata(PySlice(s.meta.counts, start.value, stop.value),
                                  PySlice(s.meta.types, start.value, stop.value)),
                         s.wordEndAdded);
      Ok(Synced(r))
  }

  /** On a fresh sub view a bound converts exactly when it resolves to an
      entry of the prefix table, and the converted bound selects the full
      token starting there. */
  lemma SubToFullFresh(s: TokenSequence, b: Option<int>)
    requires WellFormed(s) && s.view.SubTokens?
    ensures |s.table| == |s.meta.counts| + 1
    ensures SubToFullIndex(s, b).Ok? <==> ResolveStart(b, |s.tokens|) in s.table
    ensures SubToFullIndex(s, b).Ok? <==> ResolveStop(b, |s.tokens|) in s.table
    ensures SubToFullIndex(s, b).Ok? ==>
              && s.table[ResolveStart(SubToFullIndex(s, b).value, |s.meta.counts|)] == ResolveStart(b, |s.tokens|)
              && s.table[ResolveStop(SubToFullIndex(s, b).value, |s.meta.counts|)] == ResolveStop(b, |s.tokens|)
  {
    var c := s.meta.counts;
    PrefixTableEntry(c, |c|);
    PrefixTableEntry(c, 0);
    assert c[..|c|] == c;
    assert s.table[0] == 0;
    assert s.table[|c|] == |s.tokens|;
    if b.Some? && b.value + |s.tokens| < 0 {
      var j := LastIndexOf(s.table, |s.tokens|);
      assert j == Some(|c|);
    }
  }

  /** Slicing a fresh sub view never fails, always carries exactly the sliced
      sub-tokens, and stays synchronized exactly when both resolved bounds are
      full-token boundaries; then the result is itself a fresh sub view whose
      full tokens are those of the original between the two boundaries. */
  lemma SliceAlignment(s: TokenSequence, start: Option<int>, stop: Option<int>)
    requires WellFormed(s) && s.view.SubTokens?
    ensures GetItem(s, Slice(start, stop, None)).Ok?
    ensures var r := GetItem(s, Slice(start, stop, None)).value;
            && Raw(r) == PySlice(s.tokens, start, stop)
            && (r.Synced? <==> ResolveStart(start, |s.tokens|) in s.table && ResolveStop(stop, |s.tokens|) in s.table)
            && (r.Surrogate? ==> r == Surrogate(PySlice(s.tokens, start, stop)))
            && (r.Synced? ==> WellFormed(r.sequence) && r.sequence.wordEndAdded == s.wordEndAdded)
            && (r.Synced? ==> SubToFullIndex(s, start).Ok? && SubToFullIndex(s, stop).Ok?)
            && (r.Synced? ==>
                  var ka := ResolveStart(SubToFullIndex(s, start).value, |s.meta.counts|);
                  var kb := ResolveStop(SubToFullIndex(s, stop).value, |s.meta.counts|);
                  && ka <= |s.meta.counts| && kb <= |s.meta.counts|
                  && s.table[ka] == ResolveStart(start, |s.tokens|)
                  && s.table[kb] == ResolveStop(stop, |s.tokens|)
                  && r.sequence.meta.counts == PySlice(s.meta.counts, Some(ka), Some(kb))
                  && (|s.meta.types| == |s.meta.counts| ==>
                        r.sequence.meta.types == PySlice(s.meta.types, Some(ka), Some(kb))))
  {
    SubToFullFresh(s, start);
    SubToFullFresh(s, stop);
    if SubToFullIndex(s, start).Ok? && SubToFullIndex(s, stop).Ok? {
      SyncedSlice(s, start, stop);
    }
  }

  lemma SyncedSlice(s: TokenSequence, start: Option<int>, stop: Option<int>)
    requires WellFormed(s) && s.view.SubTokens?
    requires SubToFullIndex(s, start).Ok? && SubToFullIndex(s, stop).Ok?
    ensures GetItem(s, Slice(start, stop, None)).Ok?
    ensures GetItem(s, Slice(start, stop, None)).value.Synced?
    ensures var ka := ResolveStart(SubToFullIndex(s, start).value, |s.meta.counts|);
            var kb := ResolveStop(SubToFullIndex(s, stop).value, |s.meta.counts|);
            var r := GetItem(s, Slice(start, stop, None)).value.sequence;
            && ka <= |s.meta.counts| && kb <= |s.meta.counts|
            && s.table[ka] == ResolveStart(start, |s.tokens|)
            && s.table[kb] == ResolveStop(stop, |s.tokens|)
            && r.meta.counts == PySlice(s.meta.counts, Some(ka), Some(kb))
            && (|s.meta.types| == |s.meta.counts| ==> r.meta.types == PySlice(s.meta.types, Some(ka), Some(kb)))
  {
    var ka, kb := SyncedBounds(s, start, stop);
    var a := SubToFullIndex(s, start).value;
    var b := SubToFullIndex(s, stop).value;
    SliceBetween(s, SubTokens, ka, kb, PySlice(s.meta.types, a, b), Join);
  }

  /** The full-token indices that the two converted bounds resolve to, and the
      token and count slices they select. */
  lemma SyncedBounds(s: TokenSequence, start: Option<int>, stop: Option<int>) returns (ka: nat, kb: nat)
    requires WellFormed(s) && s.view.SubTokens?
    requires SubToFullIndex(s, start).Ok? && SubToFullIndex(s, stop).Ok?
    ensures |s.table| == |s.meta.counts| + 1
    ensures ka == ResolveStart(SubToFullIndex(s, start).value, |s.meta.counts|)
    ensures kb == ResolveStop(SubToFullIndex(s, stop).value, |s.meta.counts|)
    ensures ka <= |s.meta.counts| && kb <= |s.meta.counts|
    ensures s.table[ka] == ResolveStart(start, |s.tokens|) && s.table[kb] == ResolveStop(stop, |s.tokens|)
    ensures PySlice(s.tokens, start, stop) == PySlice(s.tokens, Some(s.table[ka]), Some(s.table[kb]))
    ensures PySlice(s.meta.counts, SubToFullIndex(s, start).value, SubToFullIndex(s, stop).value)
            == PySlice(s.meta.counts, Some(ka), Some(kb))
    ensures |s.meta.types| == |s.meta.counts| ==>
              PySlice(s.meta.types, SubToFullIndex(s, start).value, SubToFullIndex(s, stop).value)
              == PySlice(s.meta.types, Some(ka), Some(kb))
  {
    SubToFullFresh(s, start);
    SubToFullFresh(s, stop);
    var a := SubToFullIndex(s, start).value;
    var b := SubToFullIndex(s, stop).value;
    var c := s.meta.counts;
    ka := ResolveStart(a, |c|);
    kb := ResolveStop(b, |c|);
    PySliceResolved(c, a, b);
    PySliceResolved(s.meta.types, a, b);
    PrefixTableEntry(c, |c|);
    assert c[..|c|] == c;
    PrefixTableSpan(c, ka, |c|);
    PrefixTableSpan(c, kb, |c|);
  }

  /** A zero count repeats an offset in the table, and a converted bound
      picks the last full token starting there: over counts `[1, 0, 2]`,
      `sub[1:]` keeps only the full token of two sub-tokens. */
  lemma ZeroCountSlice() returns (s: TokenSequence)
    ensures s == TokenSequence(SubTokens, ["a</t>", "b", "c</t>"], Metadata([1, 0, 2], ["x", "y", "z"]), false, [0, 1, 1, 3])
    ensures WellFormed(s)
    ensures GetItem(s, Slice(Some(1), None, None)).Ok?
    ensures GetItem(s, Slice(Some(1), None, None)).value.Synced?
    ensures GetItem(s, Slice(Some(1), None, None)).value.sequence.meta.counts == [2]
  {
    var c: seq<nat> := [1, 0, 2];
    s := TokenSequence(SubTokens, ["a</t>", "b", "c</t>"], Metadata(c, ["x", "y", "z"]), false, [0, 1, 1, 3]);
    PrefixTableEntry(c, 0);
    PrefixTableEntry(c, 1);
    PrefixTableEntry(c, 2);
    PrefixTableEntry(c, 3);
    assert c[..1] == [1] && c[..2] == [1, 0] && c[..3] == c;
    assert Sum([1]) == 1 && Sum([1, 0]) == 1 && Sum(c) == 3;
    assert PrefixTable(c) == s.table;
    SliceAlignment(s, Some(1), None);
    assert SubToFullIndex(s, Some(1)).value == Some(2);
  }

  /** `__len__`: the number of sub-tokens. */
  function Len(s: TokenSequence): (r: nat)
    requires s.view.SubTokens?
    ensures Length(s) == Ok(r)
    ensures WellFormed(s) ==> r == Sum(s.meta.counts)
  {
    |s.tokens|
  }

  /** `get_iterator(over, over_full_tokens)`: full-token data is broadcast
      down to the sub-tokens; sub-token data passes through. */
  function GetIterator<A>(s: TokenSequence, over: seq<A>, overFullTokens: bool): (r: Result<seq<A>, IterError<A>>)
    requires s.view.SubTokens?
    ensures !overFullTokens ==> r == Ok(over)
    ensures overFullTokens ==> (r.Err? <==> |over| > |s.meta.counts|)
    ensures overFullTokens && r.Ok? ==> |over| <= |s.meta.counts| && r.value == Spread(over, s.meta.counts)
    ensures overFullTokens && r.Err? ==>
              |s.meta.counts| < |over| && r.error.emitted == Spread(over[..|s.meta.counts|], s.meta.counts)
  {
    if overFullTokens then Broadcast(over, s.meta.counts) else Ok(over)
  }

  /** On a fresh sub view with positive counts, broadcasting one value per
      full token yields one value per sub-token, and grouping that back by
      the full tokens hands each full token the copies of its own value. */
  lemma BroadcastAligns<R>(s: TokenSequence, over: seq<string>, f: seq<string> -> R)
    requires WellFormed(s) && s.view.SubTokens?
    requires forall k :: 0 <= k < |s.meta.counts| ==> s.meta.counts[k] > 0
    requires |over| == |s.meta.counts|
    ensures GetIterator(s, over, true).Ok?
    ensures |GetIterator(s, over, true).value| == |s.tokens|
    ensures Group(GetIterator(s, over, true).value, s.meta.counts, f)
            == seq(|over|, i requires 0 <= i < |over| => f(Repeat(over[i], s.meta.counts[i])))
  {
    assert s.meta.counts[..|over|] == s.meta.counts;
    SpreadLength(over, s.meta.counts);
    GroupAfterBroadcast(over, s.meta.counts, f);
  }

  /** `from_full_token(prepped_token, token_type)`: one full token made of all
      the given sub-tokens; it always passes the construction checks. */
  function FromFullToken(tokens: seq<string>, tokenType: TokenType): (r: Result<TokenSequence, Error>)
    ensures r.Ok?
    ensures WellFormed(r.value) && r.value.view == SubTokens && r.value.tokens == tokens
    ensures FullWords(r.value.tokens, r.value.meta.counts) == [Join(tokens)]
    ensures r.value.meta.counts == [|tokens|] && r.value.meta.types == [tokenType]
    ensures !r.value.wordEndAdded
  {
    var counts := [|tokens|];
    assert Sum(counts) == |tokens| + Sum([]);
    GroupExact(tokens, counts, Join, 0);
    PrefixTableEntry(counts, 1);
    assert counts[..1] == counts;
    assert tokens[0..|tokens|] == tokens;
    Construct(SubTokens, tokens, Metadata(counts, [tokenType]), false)
  }

  /** `set_all_tokens_type(t)`: every full token gets type `t`; nothing else
      changes. */
  function SetAllTokensType(s: TokenSequence, t: TokenType): (r: TokenSequence)
    requires s.view.SubTokens?
    ensures |r.meta.types| == |s.meta.counts|
    ensures forall i :: 0 <= i < |r.meta.types| ==> r.meta.types[i] == t
    ensures r.tokens == s.tokens && r.meta.counts == s.meta.counts && r.table == s.table
    ensures r.view == s.view && r.wordEndAdded == s.wordEndAdded
    ensures WellFormed(s) ==> WellFormed(r)
  {
    s.(meta := s.meta.(types := Repeat(t, |s.meta.counts|)))
  }
}

=== FILE: wrappers.dfy ===
/** Failure-compatible wrappers used for Python's `None` and for its exceptions. */
module Wrappers {

  /** `None` or a present value, as Python's `Optional`. */
  datatype Option<+T> = None | Some(value: T)

  /** The outcome of an operation that may raise: a value or the error it raised. */
  datatype Result<+T, +E> = Ok(value: T) | Err(error: E) {

    predicate IsFailure() {
      Err?
    }

    function PropagateFailure<U>(): Result<U, E>
      requires Err?
    {
      Err(error)
    }

    function Extract(): T
      requires Ok?
    {
      value
    }
  }
}
